=== FILE: README.md ===
# Memes evolutivos: a verified model of the evolutionary engine

Memes evolutivos breeds memes: pairs of one image and one audio clip, each
chosen from a corpus of pre-computed embeddings. A person rates every new
pair from 1 to 10 (or skips it). The engine in `evolutivo.py` then:

- breeds the next generation from the rated one, elitist first, weighted
  random after that;
- crosses and mutates the parents' embedding vectors;
- snaps the resulting vectors back onto the nearest (or, at the mutation
  rate, the second-nearest) corpus entries;
- caches scores so a pair seen before is not rated again;
- raises its mutation rate when progress stalls or the cache keeps hitting.

This project models that engine in Dafny and proves what it guarantees.

## Modules

- `Config`: the constants of the engine and the per-modality embedding
  statistics.
- `Vectors`: sums, means, squared distances and rescaling.
- `Sorting`: the stable descending sort that `list.sort(key=..., reverse=True)`
  performs.
- `Mutation`: `mutate`.
- `Corpus`: the embedding tables and the nearest and second-nearest row
  query (`cdist` plus `argsort`).
- `Crossover`: `criar_meme_aleatorio` and `cruzar_memes`.
- `Mating`: `gerar_nova_populacao`, with the selection weights and both
  mating phases.
- `Cache`: the rating loop over one population, with the score dictionary.
- `Leaderboard`: `obter_top3_memes`.
- `Controller`: the adaptive mutation-rate controller.
- `Engine`: one pass of the main loop, composing cache, mating and
  controller.

Randomness is explicit. Every `random`/`np.random` call becomes a field of a
draw record:

- `MutationDraws`, `SiteDraws`
- `CrossDraws`
- `PartnerDraw`, `PairDraw`
- the rater's answers, `Rating`

The ranges the random source guarantees become preconditions
(`Mutation.WellFormed`, `Crossover.WellFormedCross`,
`Mating.PartnerDrawsValid`, `Mating.PairDrawsValid`).

The module-global mutation rate is a parameter, and the controller's
globals are a record, `Controller.AdaptiveState`.

Some behaviours of the code are easy to misread, and the model states them
as the code has them:

- The rate increment is scaled by the stagnation count. After three
  stagnant generations from the initial rate, the rate is therefore
  0.2 + 0.02 · 3 = 0.26, not 0.2 + 0.02 = 0.22
  (`Controller.ThreeStagnantGenerations`).
- A mutation that fires does not always change the vector: a multiply by
  exactly 1.0 leaves it as it was (`Mutation.FiringMayLeaveVectorUnchanged`).
- Ratings are 1 to 10, the ten buttons of the rating screen
  (gera_meme.py:426-447 and 575), or 0.0 for a skip. Nothing in the engine
  depends on an upper bound, so the model takes any real score.
- A skipped pair is stored as `None` and at once overwritten with 0.0.
  So the caches the engine builds never hold `None`, and the `None` filter
  of the leaderboard never drops anything (`Leaderboard.NothingDropped`).
- The results screen (gera_meme.py:713-913) returns `True` on every exit
  path. A request to see the results therefore always ends the run, so the
  model's rater answers `Scored`, `Skipped` or `Stop`.

## Model

| member | source | states |
|---|---|---|
| Config.StatsOf | evolutivo.py:40-55 | Each modality's spread is positive and its coordinate range straddles zero, which the mutation bounds rely on. |
| Vectors.SqDistSelf | evolutivo.py:113-114 | A vector is at distance zero from itself. |
| Vectors.SumScale | evolutivo.py:135-140 | Dividing every weight by a total divides their sum by it. |
| Vectors.SumPositive | evolutivo.py:135 | A non-empty sequence of positive weights has a positive sum. |
| Sorting.SortDesc | evolutivo.py:130 | The sort orders by descending key and is a permutation of its input. Its stability is `Sorting.SortDescIsStable`. |
| Sorting.FirstBest | evolutivo.py:130-131 | The earliest element with the largest key: no element has a larger key, and every earlier one has a strictly smaller key. |
| Sorting.SortHeadIsFirstBest | evolutivo.py:130-131 | Stability at the head: the first element after sorting is the earliest element carrying the largest key. |
| Sorting.PrefixDominates | evolutivo.py:209-211 | Every element cut off by taking a prefix of the sorted list has a key no larger than any element kept. |
| Sorting.InsertKeyRun | evolutivo.py:130 | Inserting an element keeps it ahead of every element with the same key, so the elements of each key keep their relative order. |
| Sorting.SortDescIsStable | evolutivo.py:130 | Stability, as Python's sort guarantees: for every key value, the elements carrying it appear in the output in the order they had in the input. |
| Mutation.MaxMutations | evolutivo.py:73 | The mutation count bound is at least 1 and at least n // 20, and it is one of those two. |
| Mutation.OpsFired | evolutivo.py:80-84 | 1 to 3 operators fire, in the source's list order, and each fires exactly when its draw is below rate/3 or when none fired and the fallback choice is that operator. |
| Mutation.Mutate | evolutivo.py:64-98 | The length is kept. A gate draw at or above the rate returns the input. Any changed coordinate was picked by a site of a firing mutation. At most MaxMutations(n) distinct coordinates are picked. |
| Mutation.ApplySitesPointwise | evolutivo.py:75-94 | Each coordinate of the result equals an independent reference that follows only the sites picking that coordinate, so repeated picks compound. |
| Mutation.CoordAfterUnpicked | evolutivo.py:75-94 | A coordinate no site picks keeps its value under the reference definition. |
| Mutation.MutationIsLocal | evolutivo.py:75-94 | Coordinates that no site picks are left unchanged. |
| Mutation.PickedBound | evolutivo.py:73-77 | k site draws pick at most k distinct coordinates. |
| Mutation.SubstituteForgets | evolutivo.py:86-94 | Once substitute fires at a site, the result no longer depends on the coordinate's previous value. |
| Mutation.SubstituteThen | evolutivo.py:86-94 | With substitute firing, the site's value is the drawn value, times the factor if multiply fires, plus the shift if add fires. |
| Mutation.SubstitutedValueBounded | evolutivo.py:86-94 | A substitute-only site lands in [min, max] of the modality. With multiply and add also firing, it stays within 1.05·[min, max] widened by 0.05·std. |
| Mutation.FiringMayLeaveVectorUnchanged | evolutivo.py:65-94 | There are well-formed draws at rate 1.0 for which the mutation fires and still returns its input unchanged. |
| Corpus.ArgMinExcept | evolutivo.py:113-124 | The closest row other than the excluded one, and the lowest index among equally close rows. |
| Corpus.Nearest | evolutivo.py:114-118 | `argsort(d)[0]`: a row no other row is closer than. |
| Corpus.SecondNearest | evolutivo.py:115-116 | `argsort(d)[1]`: a row other than the nearest, with no row except the nearest closer than it. |
| Corpus.Snap | evolutivo.py:113-124 | The index is valid. It is the nearest row exactly when the snap draw is not below the rate or the table has a single row. Otherwise no row but the nearest is closer. |
| Corpus.NearestOfRowIsExact | evolutivo.py:113-118 | The nearest row to a vector equal to a corpus row is at distance zero from it. `Snap` returns that row unless the snap draw falls below the rate. |
| Crossover.Seed | evolutivo.py:57-62 | A random individual conforms to the corpora, and its vectors are exactly the chosen rows' embeddings. |
| Crossover.MidpointBetween | evolutivo.py:102-104 | Arithmetic crossover is symmetric in the parents and puts every coordinate between theirs. |
| Crossover.PickEachFromParents | evolutivo.py:105-107 | Uniform crossover takes every coordinate from one parent, and inverting every choice swaps the parents' roles. |
| Crossover.Cross | evolutivo.py:100-126 | The child conforms to the corpora. Every coordinate the mutation leaves alone is the parents' midpoint or one parent's coordinate, depending on the style draw. Each index is the snap of the child's own mutated vector. |
| Mating.Ranked | evolutivo.py:130 | The evaluations are sorted by descending score and permuted, with none lost. Evaluations with equal scores keep their order, which fixes the ranked index each individual is drawn by. |
| Mating.SelectionWeights | evolutivo.py:133-140 | The renormalised weights of the non-best individuals are all positive and sum to 1. They equal the weights computed directly over those individuals, so the uniform fallback at lines 168-170 never runs. |
| Mating.Renormalise | evolutivo.py:135-140 | Dropping the best's weight and dividing by the rest's sum gives the same weights as normalising the rest directly. |
| Mating.Normalised | evolutivo.py:140 | Positive weights divided by their sum are positive and sum to 1. |
| Mating.CoupleOf | evolutivo.py:148 | `tuple(sorted(...))`: the unordered pair, smaller index first. |
| Mating.TopCouplesSize | evolutivo.py:145-156 | The best individual can form exactly n - 1 distinct couples with a pool of n. |
| Mating.DistinctCouplesCount | evolutivo.py:148-151 | Children with pairwise distinct couples have as many couples as there are children. |
| Mating.TopChildrenBound | evolutivo.py:145-156 | Phase 1 children have distinct couples, each formed by the best individual and another one. So there are at most n - 1 of them. |
| Mating.ExtendPartnerChildren | evolutivo.py:149-156 | Appending a child built from the current phase 1 draw keeps every child traceable to an accepted draw. |
| Mating.ExtendPairChildren | evolutivo.py:171-178 | The same for phase 2 draws. |
| Mating.AppendLaterDraw | evolutivo.py:146-154 | Appending a child whose draw comes after every earlier child's keeps the children in draw order. |
| Mating.AppendFirstPartner | evolutivo.py:146-151 | A child comes from the first phase 1 draw that named its couple. This holds for a new child whose couple no earlier draw used. |
| Mating.AppendFirstPair | evolutivo.py:167-173 | The same for phase 2 draws. |
| Mating.CouplesOfAppend | evolutivo.py:150-151 | The used-couple set grows by exactly the new child's couple. |
| Mating.AppendFreshCouple | evolutivo.py:150-151 | Appending a child with an unused couple keeps all couples distinct. |
| Mating.TopAccept | evolutivo.py:146-156 | A phase 1 draw with a new couple yields the crossover of the best individual and the drawn partner, and records its couple. |
| Mating.TopReject | evolutivo.py:146-150 | A phase 1 draw whose couple was used is consumed without a child. |
| Mating.TopLoopAccept | evolutivo.py:145-156 | After a new couple's child is appended, the children are still in draw order, each from the first draw of its couple. Once the target is reached, the last child comes from the last draw consumed. |
| Mating.TopPhaseStep | evolutivo.py:146-156 | One phase 1 iteration leaves the earlier children as they are and adds at most one child. A new child comes from this draw, its couple's first, and the couples of all draws so far are the children's. |
| Mating.PairWithTop | evolutivo.py:145-156 | Phase 1 yields at most the target and at most n - 1 children, all with the best individual. The children are exactly the draws whose couple comes up for the first time, in draw order, each crossed from its draw. Every consumed draw's couple is a child's. The phase stops at the draw that completes the target, or when the draws run out. |
| Mating.RestAccept | evolutivo.py:171-178 | A phase 2 draw with a new couple yields the crossover of the two drawn parents and records its couple. |
| Mating.FreshCouple | evolutivo.py:171-173 | Recording a fresh couple keeps the couples distinct, disjoint from phase 1's and in step with the used set. |
| Mating.RestReject | evolutivo.py:171 | A phase 2 draw whose couple was used is consumed without a child. |
| Mating.RestPhaseStep | evolutivo.py:158-181 | One phase 2 iteration leaves the earlier children as they are and adds at most one child. A new child comes from this draw, its couple's first. |
| Mating.PairRest | evolutivo.py:158-181 | Phase 2 does nothing with fewer than two non-best individuals. Otherwise it adds at most the remaining places, and the children are exactly the pair draws whose couple is new to both phases, in draw order, each crossed from its draw. Every consumed draw's couple is used. The phase stops at the draw that fills the places, or when the draws run out. |
| Mating.RankedConform | evolutivo.py:130-134 | Ranking keeps every parent conforming to the corpora. |
| Mating.JoinPhases | evolutivo.py:142-183 | In the joined population no couple repeats, the children with the best individual as a parent are exactly the first EliteChildren, and each child traces back to its phase's draw. |
| Mating.JoinOutcomes | evolutivo.py:142-183 | Joining phase 1's children with phase 2's, which runs only on a complete phase 1, gives the two phases' outcomes over the first EliteChildren children and the rest. |
| Mating.OffspringConsumed | evolutivo.py:145-181 | Every consumed draw's couple is among the final children. Phase 1 leaves draws unused only when it has its EliteChildren children. A short population means phase 1 ran out of draws and phase 2 never ran, or phase 2 ran out of draws. |
| Mating.CouplesOfSplit | evolutivo.py:148-151 | The couples of a prefix or suffix of the children are couples of the whole population. |
| Mating.JoinDrawOrder | evolutivo.py:145-181 | Joining two phases whose children are in draw order keeps each phase in draw order. |
| Mating.ChildrenConform | evolutivo.py:150-183 | Every child traced to a draw of either phase conforms to the corpora. |
| Mating.Breed | evolutivo.py:142-183 | The two phases over the ranked parents satisfy `Mating.Offspring` and everything `Mating.OffspringConsumed` derives from it. No couple repeats. The first EliteChildren children, and only they, have the best as a parent. |
| Mating.RankedHead | evolutivo.py:130-131 | `melhores` receives the earliest top-scoring evaluation, which no evaluation beats. |
| Mating.NextGeneration | evolutivo.py:129-183 | `melhores` grows by the best evaluation. The population has at most PopulationSize members, each a child, with distinct couples. It falls short of PopulationSize only when a phase ran out of draws, where the source keeps sampling. The first EliteChildren children, and only they, have the best as a parent. Within each phase the children come in draw order, and every child is the crossover of the first draw of its couple. Every consumed draw's couple is among the children's. Phase 1 stops consuming only once it has EliteChildren children; phase 2 consumes nothing unless phase 1 completed, and stops consuming only once the population is full. |
| Cache.HitStep | evolutivo.py:241-244 | A cache hit reuses the stored score, counts a repeat, asks nothing, and leaves the cache unchanged. |
| Cache.MissIsFresh | evolutivo.py:241-253 | The rater is only ever asked about a pair not yet cached and not asked before. |
| Cache.AskStore | evolutivo.py:270-284 | A rating is stored under the pair and a skip is stored as 0.0. Either way one evaluation with that score is added. |
| Cache.AskStop | evolutivo.py:255-268 | A stop request stores nothing and ends the loop after the pair being shown. |
| Cache.NewPairsExact | evolutivo.py:235-253 | The reference question list holds exactly the pairs not known before, each once. Its length and the reference hit count add up to the number of individuals. |
| Cache.StepNew | evolutivo.py:247-253 | Visiting a pair not seen before adds it to the reference questions and adds no hit. |
| Cache.StepSeen | evolutivo.py:241-243 | Visiting a pair seen before adds a hit and no question. |
| Cache.TallyAsked | evolutivo.py:235-253 | Every question is about a pair of the population. |
| Cache.HitsAndNewPairs | evolutivo.py:235-243 | The reference hit count and the number of distinct pairs not known before add up to the number of individuals. |
| Cache.TallyHit | evolutivo.py:239-243 | A hit counts exactly one repeat: its pair was in the starting cache or was asked about for an earlier individual. |
| Cache.TallyMiss | evolutivo.py:239-253 | A miss counts no repeat: its pair is neither in the starting cache nor the pair of an earlier individual. The question is about the individual being visited, and the questions stay the reference list followed, on a stop, by the pair shown. |
| Cache.PrefixKeys | evolutivo.py:235-239 | The pairs of the individuals visited so far are pairs of the population. |
| Cache.ConformingKeys | evolutivo.py:57-62 | The pairs of individuals that fit the corpora index rows of both tables. |
| Cache.Visit | evolutivo.py:235-284 | One iteration of the rating loop, as a hit, a stored answer or a stop. |
| Cache.EvaluateGeneration | evolutivo.py:235-284 | The cache only grows, with scores for pairs the rater was asked about. Every question is about an individual visited so far, and every answer is recorded. The questions are the reference list of first occurrences of pairs not cached before, in population order, followed on a stop by the pair that got the stop. After a full pass, `quant_repet` equals the reference hit count, and the rater was asked once per distinct pair not cached before. Each evaluation carries its pair's cached score, and without cached markers evaluation i is individual i. The loop stops early exactly when a stop request arrives. |
| Leaderboard.Eligible | evolutivo.py:190-206 | The listed entries are exactly those the cache items resolve to. |
| Leaderboard.TopThree | evolutivo.py:185-211 | An empty cache gives an empty list. The list holds min(3, eligible) entries in descending score order, drawn from the eligible ones. |
| Leaderboard.TopThreeDominates | evolutivo.py:209-211 | No eligible entry left off the list scores above any entry on it. |
| Leaderboard.TopThreeHead | evolutivo.py:209-211 | First place goes to the best-scored entry inserted earliest into the cache. |
| Leaderboard.NothingDropped | evolutivo.py:193-194 | For a marker-free cache whose indices lie within the tables, as every cache the engine keeps is (`Engine.Invariant`), every item is listed. |
| Controller.Adapt | evolutivo.py:301-311 | The best average only rises. The stagnation count resets on improvement or on a rate increase. The rate rises by 0.02 · max(streak, 1), capped at 0.5, exactly when the streak reaches 3 or at least half the population was a cache hit. The state invariant is kept. |
| Controller.RunKeepsRateBounded | evolutivo.py:301-311 | Over any sequence of generations the rate never decreases and stays within [0.2, 0.5]. |
| Controller.RunFromInitial | evolutivo.py:218-219 | From the initial state the rate stays within [0.2, 0.5] forever. |
| Controller.RunRateMonotone | evolutivo.py:308-310 | A longer run never has a lower rate than any of its prefixes. |
| Controller.SaturationIsPermanent | evolutivo.py:310 | Once the rate reaches 0.5 it stays there. |
| Controller.ThreeStagnantGenerations | evolutivo.py:301-311 | From rate 0.2, three generations that fail to improve by more than 0.01, with fewer than five repeats each, give rate 0.26 and a reset counter. |
| Engine.StartIsInvariant | evolutivo.py:214-219 | The starting state satisfies the loop invariant. |
| Engine.FirstStopDecides | evolutivo.py:255-267 | Whether the run ends through the results screen is decided by the first stop request. |
| Engine.CompletedEvaluation | evolutivo.py:281-295 | After a full rating pass, individual i has evaluation i, every pair is cached, and the generation's scores are the cached scores in population order. |
| Engine.StoppedEvaluation | evolutivo.py:255-268 | After a stopped pass the cache still holds only scores. The individuals before the stop have their cached scores as evaluations. The stop acted on is the first stop request. |
| Engine.Questions | evolutivo.py:235-284 | The cache gains only answers to questions asked. Each answer has its effect. The last answer is a stop exactly when the loop stopped. The questions are the reference list over the individuals visited. |
| Engine.Rate | evolutivo.py:235-284 | The rating loop of one generation. The cache grows only by the pairs asked about, all from the population, so its indices stay within the tables, and it holds only scores. Each answer is stored under the pair it was asked for: a score as given, a skip as 0.0, a stop not at all. The questions are the reference list, and the loop stopped exactly when the last answer is a stop. The first `rated` individuals are cached, `rated` falls short exactly on a stop, and the hit count is the reference count over the rated individuals. |
| Engine.RankedBest | evolutivo.py:130-131 | The entry `melhores` gains: an individual of the population with its cached score, no individual scores more, and every earlier individual scores strictly less, so it is the head of the stable descending ranking. |
| Engine.Breed | evolutivo.py:129-183 | The children are bred from the evaluations as `Engine.BredFrom` states, the next population is their genomes and conforms to the corpora, and `melhores` gains exactly `Engine.RankedBest`. |
| Engine.Advance | evolutivo.py:286-311 | After a full pass, the history gains the mean of the cached scores. The next population is the bred children, with the draws consumed as `Mating.NextGeneration` states, over the ranked evaluations. The controller becomes `Adapt` of the old state, that mean and the hit count. `melhores` gains exactly `Engine.RankedBest` of the generation, the ranked head, which scores at least every individual. |
| Engine.Generation | evolutivo.py:222-311 | The loop invariant is kept, the cache only grows, the rate never decreases, and `hits` is the reference hit count over the rated individuals. The cache gains only the pairs asked about, each answer stored under its pair as in `Engine.Rate`, and the run stopped exactly when the last answer is a stop. Without a stop: the questions are the reference list over the population; every individual is cached; the history gains the mean of the cached scores; the controller becomes `Adapt` of the old state, that mean and the hit count; the next population is exactly the bred children, with the draws consumed as `Mating.NextGeneration` states; `melhores` gains exactly `Engine.RankedBest` of the generation, the ranked head, which scores at least every individual's cached score. On a stop, the questions are the reference list over the rated individuals followed by the stopped pair, nothing is bred, controller, population and bests are unchanged, and the partial mean is recorded exactly when the results screen was requested and some rating was gathered. |

## Left out

- The user interface (gera_meme.py): windows, audio playback, the rating
  and results screens. The rater is a sequence of answers.
- Loading the CSV tables and the image and audio embedding scripts
  (images.py, sons.py): the corpora are a parameter.
- Floating point: the model computes in exact reals. Rounding, NaN and
  overflow in numpy are not modelled.
- Corpus.Distances: uses squared Euclidean distance. `cdist` takes the
  square root, which does not change the order of rows.
- Corpus.ArgMinExcept: breaks ties toward the lowest index. `np.argsort`'s
  default quicksort gives no tie-breaking guarantee.
- Mating.NextGeneration: the weighted draws (`np.random.choice` with
  `pesos_restantes`) are abstracted to draws from the valid index ranges.
  Their distribution is not modelled; `Mating.SelectionWeights` only proves
  the weights form a distribution.
- Mating.PairWithTop: the source samples until phase 1 reaches five
  children, and with fewer than six individuals it never does. The model
  consumes a finite draw sequence, so it claims nothing about termination.
  It proves that fewer than five distinct partners make five children
  impossible.
- Mating.NextGeneration: requires at least two evaluations. With one, the
  source's `np.random.choice` over an empty pool raises.
- Mutation.Mutate: a firing mutation of an empty vector raises in the
  source (`randint(0, -1)`). No well-formed draws exist for it, so the
  model excludes that case.
- Leaderboard.TopThree: the top three shown during the rating loop are
  display-only and are not modelled as an input to rating.
- Engine.Generation: covers one pass of the loop. The 100-generation bound
  (`num_geracoes`) and the printing are left out. The controller's
  multi-generation behaviour is stated over `Controller.Run`.
- Engine.Generation: requires the loop invariant (a marker-free cache
  with in-range indices, which `Engine.StartIsInvariant` and the method
  itself keep), at least two individuals and enough answers for the whole
  population. Under those
  conditions the "no valid evaluations" skip (lines 289-291) cannot happen.
- The `zip` in uniform crossover and `np.mean` assume parents of equal
  dimension. The model requires every vector to match its table's
  dimension (`Crossover.Conforms`).

=== FILE: cache.dfy ===
/** The evaluation part of one generation of the main loop (evolutivo.py):
    each individual in population order is looked up in the score cache
    `dicionario_notas` by its pair of asset indices; a hit reuses the stored
    score and counts as a repeat, a miss asks the external rater. The rater
    is an explicit sequence of answers, one per question asked. */
module Cache {
  import opened Corpus
  import opened Crossover
  import opened Mating

  /** The discrete identity of a meme, `(img_idx, aud_idx)`. */
  datatype Key = Key(image: nat, audio: nat)

  function KeyOf(g: Genome): Key
  {
    Key(g.imageIndex, g.audioIndex)
  }

  /** A cache value: a score, or the `None` marker for a skipped meme. */
  datatype Stored = Score(value: real) | Marker

  type Scores = map<Key, Stored>

  /** The rater's answer: a score, a skip, or a request to end the run. A
      stop either closes the window outright or asks for the results screen
      first (`showResults`); that screen ends the run on every exit path. */
  datatype Rating = Scored(score: real) | Skipped | Stop(showResults: bool)

  predicate NoMarkers(cache: Scores)
  {
    forall k :: k in cache ==> cache[k].Score?
  }

  /** Bookkeeping of the loop: a repeat for every hit, a question for every
      miss, and a Stop answer only as the last question. */
  ghost predicate Counts(population: seq<Genome>, ratings: seq<Rating>, repeats: nat, asked: seq<Key>,
                         processed: nat, stop: bool)
  {
    && processed <= |population|
    && |asked| <= |ratings|
    && (stop ==> processed < |population| && |asked| > 0 && ratings[|asked| - 1].Stop?)
    && repeats + |asked| == processed + (if stop then 1 else 0)
  }

  /** The rater is asked only about keys missing from the cache, each once. */
  ghost predicate AskedFresh(cache0: Scores, asked: seq<Key>)
  {
    && (forall t :: 0 <= t < |asked| ==> asked[t] !in cache0)
    && (forall t, u :: 0 <= t < u < |asked| ==> asked[t] != asked[u])
  }

  /** Each answer's effect on the cache: a score is stored, a skip is stored
      as 0.0, a Stop stores nothing and ends the loop. */
  ghost predicate Answers(ratings: seq<Rating>, asked: seq<Key>, cache: Scores, stop: bool)
    requires |asked| <= |ratings|
  {
    && (forall t :: 0 <= t < |asked| && ratings[t].Stop? ==> stop && t == |asked| - 1 && asked[t] !in cache)
    && (forall t :: 0 <= t < |asked| && ratings[t].Scored? ==>
          asked[t] in cache && cache[asked[t]] == Score(ratings[t].score))
    && (forall t :: 0 <= t < |asked| && ratings[t].Skipped? ==>
          asked[t] in cache && cache[asked[t]] == Score(0.0))
  }

  /** The cache only grows, with scores for keys the rater was asked about. */
  ghost predicate Grows(cache0: Scores, cache: Scores, asked: seq<Key>)
  {
    && (forall k :: k in cache0 ==> k in cache && cache[k] == cache0[k])
    && (forall k :: k in cache && k !in cache0 ==> cache[k].Score? && k in asked)
  }

  ghost predicate Covered(population: seq<Genome>, processed: nat, cache: Scores)
    requires processed <= |population|
  {
    forall i :: 0 <= i < processed ==> KeyOf(population[i]) in cache
  }

  /** Every evaluation carries the score its key has in the cache. */
  ghost predicate EvalsMatch(cache: Scores, evals: seq<Evaluation>)
  {
    forall i :: 0 <= i < |evals| ==>
      KeyOf(evals[i].genome) in cache && cache[KeyOf(evals[i].genome)] == Score(evals[i].score)
  }

  /** Without markers in the cache, evaluation i belongs to individual i. */
  ghost predicate Aligned(population: seq<Genome>, cache0: Scores, evals: seq<Evaluation>, processed: nat)
  {
    NoMarkers(cache0) ==>
      && |evals| == processed <= |population|
      && forall i :: 0 <= i < |evals| ==> evals[i].genome == population[i]
  }

  /** What evaluating the first `processed` individuals has established. */
  ghost predicate Progress(population: seq<Genome>, cache0: Scores, ratings: seq<Rating>,
                           cache: Scores, evals: seq<Evaluation>, repeats: nat, asked: seq<Key>,
                           processed: nat, stop: bool)
  {
    && Counts(population, ratings, repeats, asked, processed, stop)
    && AskedFresh(cache0, asked)
    && Answers(ratings, asked, cache, stop)
    && Grows(cache0, cache, asked)
    && Covered(population, processed, cache)
    && EvalsMatch(cache, evals)
    && Aligned(population, cache0, evals, processed)
  }

  /** The pairs of a run of individuals. */
  function KeysOf(p: seq<Genome>): (ks: set<Key>)
    ensures forall i :: 0 <= i < |p| ==> KeyOf(p[i]) in ks
    decreases |p|
  {
    if p == [] then {}
    else
      var init := p[..|p| - 1];
      assert forall i :: 0 <= i < |init| ==> init[i] == p[i];
      KeysOf(init) + {KeyOf(p[|p| - 1])}
  }

  /** Every pair of a prefix is a pair of the whole run. */
  lemma {:induction false} PrefixKeys(p: seq<Genome>, n: nat)
    requires n <= |p|
    ensures KeysOf(p[..n]) <= KeysOf(p)
    decreases |p| - n
  {
    if n < |p| {
      PrefixKeys(p, n + 1);
      assert p[..n + 1][..n] == p[..n];
      assert KeysOf(p[..n + 1]) == KeysOf(p[..n]) + {KeyOf(p[n])};
    } else {
      assert p[..n] == p;
    }
  }

  /** The pairs of a run whose individuals fit the corpora index rows of the
      tables. */
  lemma {:induction false} ConformingKeys(p: seq<Genome>, c: Corpora)
    requires forall i :: 0 <= i < |p| ==> Conforms(p[i], c)
    ensures forall k :: k in KeysOf(p) ==> k.image < |c.images.rows| && k.audio < |c.audios.rows|
    decreases |p|
  {
    if p != [] {
      var init := p[..|p| - 1];
      assert forall i :: 0 <= i < |init| ==> init[i] == p[i];
      ConformingKeys(init, c);
    }
  }

  /** Every cached index within range of its table. */
  ghost predicate InRange(cache: Scores, c: Corpora)
  {
    forall k :: k in cache ==> k.image < |c.images.rows| && k.audio < |c.audios.rows|
  }

  /** A run whose pairs are all cached has no other pairs. */
  lemma {:induction false} KeysCached(p: seq<Genome>, cache: Scores)
    requires forall i :: 0 <= i < |p| ==> KeyOf(p[i]) in cache
    ensures KeysOf(p) <= cache.Keys
    decreases |p|
  {
    if p != [] {
      var init := p[..|p| - 1];
      assert forall i :: 0 <= i < |init| ==> init[i] == p[i];
      KeysCached(init, cache);
    }
  }

  /** The reference count of repeats: how many individuals, in order, find
      their pair known, either in the cache the generation started from
      (`known`) or because an earlier individual of the same run had it. */
  function Hits(p: seq<Genome>, known: set<Key>): (n: nat)
    ensures n <= |p|
    decreases |p|
  {
    if p == [] then 0
    else
      var init := p[..|p| - 1];
      Hits(init, known) + (if KeyOf(p[|p| - 1]) in known + KeysOf(init) then 1 else 0)
  }

  /** Every individual is either a hit or the first with a pair not known
      before: hits and distinct new pairs add up to the run's length. */
  lemma {:induction false} HitsAndNewPairs(p: seq<Genome>, known: set<Key>)
    ensures Hits(p, known) + |KeysOf(p) - known| == |p|
    decreases |p|
  {
    if p != [] {
      var init := p[..|p| - 1];
      var k := KeyOf(p[|p| - 1]);
      HitsAndNewPairs(init, known);
      assert KeysOf(p) == KeysOf(init) + {k};
      if k in known + KeysOf(init) {
        assert KeysOf(p) - known == KeysOf(init) - known;
      } else {
        assert KeysOf(p) - known == (KeysOf(init) - known) + {k};
        assert k !in KeysOf(init) - known;
      }
    }
  }

  /** The reference list of questions for a run: the pairs not in `known`,
      each at the individual where it first appears, in population order. */
  function NewPairs(p: seq<Genome>, known: set<Key>): (ks: seq<Key>)
    ensures forall t :: 0 <= t < |ks| ==> ks[t] in KeysOf(p) && ks[t] !in known
    decreases |p|
  {
    if p == [] then []
    else
      var init := p[..|p| - 1];
      var k := KeyOf(p[|p| - 1]);
      NewPairs(init, known) + (if k in known + KeysOf(init) then [] else [k])
  }

  /** The reference questions are exactly the new pairs, each once, and
      they and the hits account for every individual. */
  lemma {:induction false} NewPairsExact(p: seq<Genome>, known: set<Key>)
    ensures forall k :: k in NewPairs(p, known) <==> k in KeysOf(p) - known
    ensures forall t, u :: 0 <= t < u < |NewPairs(p, known)| ==> NewPairs(p, known)[t] != NewPairs(p, known)[u]
    ensures |NewPairs(p, known)| + Hits(p, known) == |p|
    decreases |p|
  {
    if p != [] {
      var init := p[..|p| - 1];
      var k := KeyOf(p[|p| - 1]);
      NewPairsExact(init, known);
      assert KeysOf(p) == KeysOf(init) + {k};
    }
  }

  /** What the loop's counters mean: the questions are the reference
      questions of the individuals processed, followed by the pair of the one
      that got a Stop; every question was thus about an individual visited so
      far, and the repeats are exactly the hits among those processed. */
  ghost predicate Tally(population: seq<Genome>, cache0: Scores, repeats: nat, asked: seq<Key>,
                        processed: nat, stop: bool)
  {
    var reach := processed + if stop then 1 else 0;
    && reach <= |population|
    && (forall t :: 0 <= t < |asked| ==> asked[t] in KeysOf(population[..reach]))
    && repeats == Hits(population[..processed], cache0.Keys)
    && asked == NewPairs(population[..processed], cache0.Keys) + (if stop then [KeyOf(population[processed])] else [])
  }

  /** Every question is about a pair of the population. */
  lemma TallyAsked(population: seq<Genome>, cache0: Scores, repeats: nat, asked: seq<Key>,
                   processed: nat, stop: bool)
    requires Tally(population, cache0, repeats, asked, processed, stop)
    ensures forall k :: k in asked ==> k in KeysOf(population)
  {
    var reach := processed + if stop then 1 else 0;
    PrefixKeys(population, reach);
    forall k | k in asked ensures k in KeysOf(population) {
      var t :| 0 <= t < |asked| && asked[t] == k;
      assert asked[t] in KeysOf(population[..reach]);
    }
  }

  /** Visiting individual `processed` extends the run of visited pairs. */
  lemma VisitedPrefix(population: seq<Genome>, processed: nat)
    requires processed < |population|
    ensures population[..processed + 1][..processed] == population[..processed]
    ensures KeysOf(population[..processed + 1]) == KeysOf(population[..processed]) + {KeyOf(population[processed])}
  {
    assert population[..processed + 1][..processed] == population[..processed];
  }

  /** A hit counts one repeat: its pair is cached, so it is either in the
      starting cache or was asked about for an earlier individual. */
  lemma TallyHit(population: seq<Genome>, cache0: Scores, cache: Scores, repeats: nat, asked: seq<Key>,
                 processed: nat)
    requires Grows(cache0, cache, asked)
    requires Tally(population, cache0, repeats, asked, processed, false)
    requires processed < |population| && KeyOf(population[processed]) in cache
    ensures Tally(population, cache0, repeats + 1, asked, processed + 1, false)
  {
    var key := KeyOf(population[processed]);
    VisitedPrefix(population, processed);
    if key !in cache0 {
      var t :| 0 <= t < |asked| && asked[t] == key;
    }
    StepSeen(population, cache0.Keys, processed);
  }

  /** A miss counts no repeat and asks about the visited individual. */
  lemma TallyMiss(population: seq<Genome>, cache0: Scores, cache: Scores, repeats: nat, asked: seq<Key>,
                  processed: nat, stop: bool)
    requires Grows(cache0, cache, asked) && processed <= |population| && Covered(population, processed, cache)
    requires Tally(population, cache0, repeats, asked, processed, false)
    requires processed < |population| && KeyOf(population[processed]) !in cache
    ensures Tally(population, cache0, repeats, asked + [KeyOf(population[processed])],
                  processed + (if stop then 0 else 1), stop)
  {
    var key := KeyOf(population[processed]);
    var pre, next := population[..processed], population[..processed + 1];
    VisitedPrefix(population, processed);
    KeysCached(pre, cache);
    StepNew(population, cache0.Keys, processed);
    var asked' := asked + [key];
    assert asked' == NewPairs(next, cache0.Keys);
    forall t | 0 <= t < |asked'| ensures asked'[t] in KeysOf(next) {
      if t < |asked| {
        assert asked'[t] == asked[t];
      }
    }
    if stop {
      assert asked' == NewPairs(pre, cache0.Keys) + [key];
      assert Tally(population, cache0, repeats, asked', processed, true);
    } else {
      assert Tally(population, cache0, repeats, asked', processed + 1, false);
    }
  }

  /** Visiting a pair not seen before adds a question and no hit. */
  lemma StepNew(population: seq<Genome>, known: set<Key>, processed: nat)
    requires processed < |population|
    requires KeyOf(population[processed]) !in known + KeysOf(population[..processed])
    ensures NewPairs(population[..processed + 1], known) == NewPairs(population[..processed], known) + [KeyOf(population[processed])]
    ensures Hits(population[..processed + 1], known) == Hits(population[..processed], known)
  {
    var next := population[..processed + 1];
    assert next[..|next| - 1] == population[..processed];
  }

  /** Visiting a pair seen before adds a hit and no question. */
  lemma StepSeen(population: seq<Genome>, known: set<Key>, processed: nat)
    requires processed < |population|
    requires KeyOf(population[processed]) in known + KeysOf(population[..processed])
    ensures NewPairs(population[..processed + 1], known) == NewPairs(population[..processed], known)
    ensures Hits(population[..processed + 1], known) == Hits(population[..processed], known) + 1
  {
    var next := population[..processed + 1];
    assert next[..|next| - 1] == population[..processed];
  }

  /** A cache hit (lines 241-243): the stored value is reused, the rater is
      not asked, and a `None` value would add no evaluation. */
  lemma HitStep(population: seq<Genome>, cache0: Scores, ratings: seq<Rating>,
                cache: Scores, evals: seq<Evaluation>, repeats: nat, asked: seq<Key>, processed: nat)
    requires Progress(population, cache0, ratings, cache, evals, repeats, asked, processed, false)
    requires processed < |population| && KeyOf(population[processed]) in cache
    ensures
      var g := population[processed];
      var evals' := if cache[KeyOf(g)].Score? then evals + [Evaluation(cache[KeyOf(g)].value, g)] else evals;
      Progress(population, cache0, ratings, cache, evals', repeats + 1, asked, processed + 1, false)
  {
    var g := population[processed];
    var key := KeyOf(g);
    var evals' := if cache[key].Score? then evals + [Evaluation(cache[key].value, g)] else evals;
    assert Covered(population, processed + 1, cache);
    assert EvalsMatch(cache, evals') by {
      forall i | 0 <= i < |evals'|
        ensures KeyOf(evals'[i].genome) in cache && cache[KeyOf(evals'[i].genome)] == Score(evals'[i].score)
      {
        if i < |evals| {
          assert evals'[i] == evals[i];
        }
      }
    }
    assert Aligned(population, cache0, evals', processed + 1) by {
      if NoMarkers(cache0) {
        assert cache[key].Score?;
      }
    }
  }

  /** The key a miss asks about has not been asked about before. */
  lemma MissIsFresh(population: seq<Genome>, cache0: Scores, ratings: seq<Rating>,
                    cache: Scores, evals: seq<Evaluation>, repeats: nat, asked: seq<Key>, processed: nat)
    requires |ratings| >= |population|
    requires Progress(population, cache0, ratings, cache, evals, repeats, asked, processed, false)
    requires processed < |population| && KeyOf(population[processed]) !in cache
    ensures |asked| < |ratings|
    ensures KeyOf(population[processed]) !in cache0
    ensures AskedFresh(cache0, asked + [KeyOf(population[processed])])
  {
    var key := KeyOf(population[processed]);
    forall t | 0 <= t < |asked| ensures asked[t] != key {
      assert !ratings[t].Stop?;
    }
  }

  /** A miss answered with a score, or with a skip stored as `v` = 0.0
      (lines 270-279). */
  lemma AskStore(population: seq<Genome>, cache0: Scores, ratings: seq<Rating>,
                 cache: Scores, evals: seq<Evaluation>, repeats: nat, asked: seq<Key>, processed: nat, v: real)
    requires |ratings| >= |population|
    requires Progress(population, cache0, ratings, cache, evals, repeats, asked, processed, false)
    requires processed < |population| && KeyOf(population[processed]) !in cache
    requires |asked| < |ratings|
    requires ratings[|asked|] == Scored(v) || (ratings[|asked|] == Skipped && v == 0.0)
    ensures
      var g := population[processed];
      var key := KeyOf(g);
      Progress(population, cache0, ratings, cache[key := Score(v)], evals + [Evaluation(v, g)],
               repeats, asked + [key], processed + 1, false)
  {
    var g := population[processed];
    var key := KeyOf(g);
    MissIsFresh(population, cache0, ratings, cache, evals, repeats, asked, processed);
    var cache' := cache[key := Score(v)];
    var asked' := asked + [key];
    var evals' := evals + [Evaluation(v, g)];
    assert Answers(ratings, asked', cache', false) by {
      forall t | 0 <= t < |asked'| && !ratings[t].Stop?
        ensures asked'[t] in cache'
        ensures ratings[t].Scored? ==> cache'[asked'[t]] == Score(ratings[t].score)
        ensures ratings[t].Skipped? ==> cache'[asked'[t]] == Score(0.0)
      {
        if t < |asked| {
          assert asked'[t] == asked[t] != key;
        }
      }
    }
    assert Grows(cache0, cache', asked');
    assert Covered(population, processed + 1, cache');
    assert EvalsMatch(cache', evals') by {
      forall i | 0 <= i < |evals'|
        ensures KeyOf(evals'[i].genome) in cache' && cache'[KeyOf(evals'[i].genome)] == Score(evals'[i].score)
      {
        if i < |evals| {
          assert evals'[i] == evals[i];
          assert KeyOf(evals[i].genome) in cache;
        }
      }
    }
  }

  /** A miss answered with Stop: nothing is stored and the loop ends. */
  lemma AskStop(population: seq<Genome>, cache0: Scores, ratings: seq<Rating>,
                cache: Scores, evals: seq<Evaluation>, repeats: nat, asked: seq<Key>, processed: nat)
    requires |ratings| >= |population|
    requires Progress(population, cache0, ratings, cache, evals, repeats, asked, processed, false)
    requires processed < |population| && KeyOf(population[processed]) !in cache
    requires |asked| < |ratings| && ratings[|asked|].Stop?
    ensures Progress(population, cache0, ratings, cache, evals, repeats,
                     asked + [KeyOf(population[processed])], processed, true)
  {
    MissIsFresh(population, cache0, ratings, cache, evals, repeats, asked, processed);
    var asked' := asked + [KeyOf(population[processed])];
    assert Answers(ratings, asked', cache, true) by {
      forall t | 0 <= t < |asked'| && !ratings[t].Stop?
        ensures asked'[t] in cache
        ensures ratings[t].Scored? ==> cache[asked'[t]] == Score(ratings[t].score)
        ensures ratings[t].Skipped? ==> cache[asked'[t]] == Score(0.0)
      {
        assert t < |asked| && asked'[t] == asked[t];
      }
    }
    assert Grows(cache0, cache, asked') by {
      forall k | k in cache && k !in cache0 ensures k in asked' {
        assert k in asked;
      }
    }
  }

  /** The handling of one individual (lines 239-284 of the main loop). */
  method Visit(population: seq<Genome>, cache0: Scores, ratings: seq<Rating>,
               cache: Scores, evals: seq<Evaluation>, repeats: nat, asked: seq<Key>, processed: nat)
    returns (cache': Scores, evals': seq<Evaluation>, repeats': nat, asked': seq<Key>,
             processed': nat, stop': bool)
    requires |ratings| >= |population|
    requires Progress(population, cache0, ratings, cache, evals, repeats, asked, processed, false)
    requires Tally(population, cache0, repeats, asked, processed, false)
    requires processed < |population|
    ensures Progress(population, cache0, ratings, cache', evals', repeats', asked', processed', stop')
    ensures Tally(population, cache0, repeats', asked', processed', stop')
    ensures stop' ==> processed' == processed
    ensures !stop' ==> processed' == processed + 1
  {
    var g := population[processed];
    var key := KeyOf(g);
    cache', evals', repeats', asked', processed', stop' := cache, evals, repeats, asked, processed, false;
    if key in cache {
      HitStep(population, cache0, ratings, cache, evals, repeats, asked, processed);
      TallyHit(population, cache0, cache, repeats, asked, processed);
      repeats' := repeats + 1;
      if cache[key].Score? {
        evals' := evals + [Evaluation(cache[key].value, g)];
      }
      processed' := processed + 1;
    } else {
      MissIsFresh(population, cache0, ratings, cache, evals, repeats, asked, processed);
      var answer := ratings[|asked|];
      asked' := asked + [key];
      match answer
      case Stop(_) =>
        AskStop(population, cache0, ratings, cache, evals, repeats, asked, processed);
        TallyMiss(population, cache0, cache, repeats, asked, processed, true);
        stop' := true;
      case Scored(v) =>
        AskStore(population, cache0, ratings, cache, evals, repeats, asked, processed, v);
        TallyMiss(population, cache0, cache, repeats, asked, processed, false);
        cache' := cache[key := Score(v)];
        evals' := evals + [Evaluation(v, g)];
        processed' := processed + 1;
      case Skipped =>
        // stored as None and at once overwritten with 0.0
        AskStore(population, cache0, ratings, cache, evals, repeats, asked, processed, 0.0);
        TallyMiss(population, cache0, cache, repeats, asked, processed, false);
        cache' := cache[key := Score(0.0)];
        evals' := evals + [Evaluation(0.0, g)];
        processed' := processed + 1;
    }
  }

  /** The `for` loop over the population. When it completes, every individual
      has a score in the cache and one evaluation, the repeats are the hits,
      and one question was asked per distinct pair not cached before; a Stop
      answer ends it early. */
  method EvaluateGeneration(population: seq<Genome>, cache0: Scores, ratings: seq<Rating>)
    returns (cache: Scores, evals: seq<Evaluation>, repeats: nat, asked: seq<Key>, processed: nat, stop: bool)
    requires |ratings| >= |population|
    ensures Progress(population, cache0, ratings, cache, evals, repeats, asked, processed, stop)
    ensures Tally(population, cache0, repeats, asked, processed, stop)
    ensures stop <==> processed < |population|
    ensures !stop ==> repeats == Hits(population, cache0.Keys)
    ensures !stop ==> |asked| == |KeysOf(population) - cache0.Keys|
    ensures !stop ==> asked == NewPairs(population, cache0.Keys)
  {
    cache, evals, repeats, asked, processed, stop := cache0, [], 0, [], 0, false;
    assert population[..0] == [];
    while processed < |population| && !stop
      invariant Progress(population, cache0, ratings, cache, evals, repeats, asked, processed, stop)
      invariant Tally(population, cache0, repeats, asked, processed, stop)
      decreases |population| - processed, if stop then 0 else 1
    {
      cache, evals, repeats, asked, processed, stop :=
        Visit(population, cache0, ratings, cache, evals, repeats, asked, processed);
    }
    if !stop {
      assert population[..processed] == population;
      HitsAndNewPairs(population, cache0.Keys);
    }
  }
}

=== FILE: config.dfy ===
/** Process-wide tuning constants of the evolutionary engine and the
    per-modality embedding statistics used to bound mutations. */
module Config {

  /** Number of individuals in a generation (`tam_populacao`). */
  const PopulationSize: nat := 10

  /** Children of the first mating phase: the best individual with partners. */
  const EliteChildren: nat := PopulationSize / 2

  /** Mutation-rate controller constants. */
  const RateIncrement: real := 0.02
  const InitialRate: real := 0.2
  const MaxRate: real := 0.5
  const StagnationLimit: nat := 3

  /** The improvement a generation's average must exceed to count as progress. */
  const ImprovementMargin: real := 0.01

  /** Weight offset that keeps every selection weight positive. */
  const WeightEpsilon: real := 0.00000001

  /** The two kinds of embedding the engine evolves. */
  datatype Modality = Image | Audio

  /** Empirical spread of one modality's embedding coordinates. */
  datatype Stats = Stats(std: real, lo: real, hi: real)

  function StatsOf(m: Modality): (s: Stats)
    ensures 0.0 < s.std && s.lo < 0.0 < s.hi
  {
    match m
    case Audio => Stats(0.04, -0.15, 0.15)
    case Image => Stats(0.6, -9.0, 4.0)
  }
}

=== FILE: controller.dfy ===
/** The adaptive mutation-rate controller at the end of each generation of
    the main loop (evolutivo.py): a stagnation counter over generations whose
    average fitness fails to beat the best so far by more than 0.01, and a
    rate increase when stagnation or duplicate evaluations pile up. The
    module-global rate of the source is a field of an explicit state. */
module Controller {
  import opened Config

  /** `taxa_mutacao`, `melhor_fitness_global`, `geracoes_sem_melhora`. */
  datatype AdaptiveState = AdaptiveState(rate: real, bestFitness: real, stagnation: nat)

  const Initial: AdaptiveState := AdaptiveState(InitialRate, -1.0, 0)

  /** What every reachable state satisfies. */
  predicate Valid(s: AdaptiveState)
  {
    InitialRate <= s.rate <= MaxRate && s.stagnation < StagnationLimit
  }

  /** The generation improves on the best average seen. */
  predicate Improves(s: AdaptiveState, average: real)
  {
    average > s.bestFitness + ImprovementMargin
  }

  /** The stagnation count before any reset by a rate increase. */
  function Streak(s: AdaptiveState, average: real): nat
  {
    if Improves(s, average) then 0 else s.stagnation + 1
  }

  /** The rate increases when stagnation reaches the limit or at least half
      the population was a cache hit (`quant_repet >= tam_populacao / 2`,
      a true division). */
  predicate Triggered(streak: nat, repeats: nat)
  {
    streak >= StagnationLimit || repeats as real >= PopulationSize as real / 2.0
  }

  function Step(streak: nat): real
  {
    RateIncrement * (if streak >= 1 then streak else 1) as real
  }

  /** One controller update after a generation with mean fitness `average`
      and `repeats` cache hits. */
  function Adapt(s: AdaptiveState, average: real, repeats: nat): (t: AdaptiveState)
    ensures t.bestFitness >= s.bestFitness
    ensures Improves(s, average) ==> t.bestFitness == average
    ensures !Improves(s, average) ==> t.bestFitness == s.bestFitness
    ensures t.stagnation < StagnationLimit
    ensures !Triggered(Streak(s, average), repeats) ==> t.rate == s.rate && t.stagnation == Streak(s, average)
    ensures Triggered(Streak(s, average), repeats) ==> t.stagnation == 0
    ensures Triggered(Streak(s, average), repeats) && s.rate + Step(Streak(s, average)) <= MaxRate ==>
      t.rate == s.rate + Step(Streak(s, average))
    ensures Triggered(Streak(s, average), repeats) && s.rate + Step(Streak(s, average)) > MaxRate ==>
      t.rate == MaxRate
    ensures s.rate <= MaxRate ==> s.rate <= t.rate <= MaxRate
    ensures Valid(s) ==> Valid(t)
  {
    var improved := Improves(s, average);
    var best := if improved then average else s.bestFitness;
    var streak := Streak(s, average);
    if Triggered(streak, repeats) then
      var raised := s.rate + Step(streak);
      AdaptiveState(if raised < MaxRate then raised else MaxRate, best, 0)
    else
      AdaptiveState(s.rate, best, streak)
  }

  /** One generation's outcome as the controller sees it. */
  datatype Observation = Observation(average: real, repeats: nat)

  /** The controller state after a sequence of generations. */
  function Run(s: AdaptiveState, gens: seq<Observation>): AdaptiveState
    decreases |gens|
  {
    if gens == [] then s else Run(Adapt(s, gens[0].average, gens[0].repeats), gens[1..])
  }

  /** Over any run the rate never decreases and stays within
      [InitialRate, MaxRate]. */
  lemma {:induction false} RunKeepsRateBounded(s: AdaptiveState, gens: seq<Observation>)
    requires Valid(s)
    ensures Valid(Run(s, gens))
    ensures s.rate <= Run(s, gens).rate
    decreases |gens|
  {
    if gens != [] {
      RunKeepsRateBounded(Adapt(s, gens[0].average, gens[0].repeats), gens[1..]);
    }
  }

  lemma RunFromInitial(gens: seq<Observation>)
    ensures InitialRate <= Run(Initial, gens).rate <= MaxRate
  {
    RunKeepsRateBounded(Initial, gens);
  }

  /** Monotone over prefixes: a longer run never has a lower rate. */
  lemma {:induction false} RunRateMonotone(s: AdaptiveState, gens: seq<Observation>, k: nat)
    requires Valid(s) && k <= |gens|
    ensures Run(s, gens[..k]).rate <= Run(s, gens).rate
    decreases k
  {
    if k > 0 {
      assert gens[..k][1..] == gens[1..][..k - 1];
      RunRateMonotone(Adapt(s, gens[0].average, gens[0].repeats), gens[1..], k - 1);
    } else {
      RunKeepsRateBounded(s, gens);
    }
  }

  /** Three generations in a row that do not improve, with few cache hits,
      raise the rate by 0.02 times the streak of three. */
  lemma ThreeStagnantGenerations(best: real, a1: real, a2: real, a3: real, r1: nat, r2: nat, r3: nat)
    requires a1 <= best + ImprovementMargin && a2 <= best + ImprovementMargin && a3 <= best + ImprovementMargin
    requires r1 < 5 && r2 < 5 && r3 < 5
    ensures Run(AdaptiveState(InitialRate, best, 0),
                [Observation(a1, r1), Observation(a2, r2), Observation(a3, r3)])
      == AdaptiveState(0.26, best, 0)
  {
    var gens := [Observation(a1, r1), Observation(a2, r2), Observation(a3, r3)];
    var s1 := Adapt(AdaptiveState(InitialRate, best, 0), a1, r1);
    assert s1 == AdaptiveState(InitialRate, best, 1);
    var s2 := Adapt(s1, a2, r2);
    assert s2 == AdaptiveState(InitialRate, best, 2);
    var s3 := Adapt(s2, a3, r3);
    assert s3 == AdaptiveState(0.26, best, 0);
    assert gens[1..] == [Observation(a2, r2), Observation(a3, r3)];
    assert gens[1..][1..] == [Observation(a3, r3)];
    assert gens[1..][1..][1..] == [];
    assert Run(s2, gens[1..][1..]) == Run(s3, []);
  }

  /** Once the rate reaches MaxRate it stays there. */
  lemma {:induction false} SaturationIsPermanent(s: AdaptiveState, gens: seq<Observation>)
    requires s.rate == MaxRate
    ensures Run(s, gens).rate == MaxRate
    decreases |gens|
  {
    if gens != [] {
      SaturationIsPermanent(Adapt(s, gens[0].average, gens[0].repeats), gens[1..]);
    }
  }
}

=== FILE: corpus.dfy ===
/** The two embedding tables (one row per image or audio asset) and the
    nearest-neighbour query that projects a continuous vector back onto a
    discrete asset: `cdist` followed by `argsort` in evolutivo.py. */
module Corpus {
  import opened Vectors

  /** One CSV row: the asset's file name and its embedding. */
  datatype Row = Row(name: string, vector: seq<real>)

  /** A loaded table: non-empty, and every row has dimension `dim`. */
  datatype Table = Table(rows: seq<Row>, dim: nat)
  {
    predicate Valid()
    {
      && |rows| > 0
      && forall i :: 0 <= i < |rows| ==> |rows[i].vector| == dim
    }
  }

  datatype Corpora = Corpora(images: Table, audios: Table)
  {
    predicate Valid()
    {
      images.Valid() && audios.Valid()
    }
  }

  /** Distance from `v` to every row, in row order. */
  function Distances(t: Table, v: seq<real>): (d: seq<real>)
    requires t.Valid() && |v| == t.dim
    ensures |d| == |t.rows|
    ensures forall i :: 0 <= i < |d| ==> d[i] == SqDist(t.rows[i].vector, v)
  {
    seq(|t.rows|, i requires 0 <= i < |t.rows| => SqDist(t.rows[i].vector, v))
  }

  /** Some index other than `skip` exists. */
  predicate HasCandidate(d: seq<real>, skip: int)
  {
    |d| >= 2 || (|d| == 1 && skip != 0)
  }

  /** The row closest to the query among those other than `skip`; among equally
      close rows the lowest index wins. */
  function ArgMinExcept(d: seq<real>, skip: int): (r: nat)
    requires HasCandidate(d, skip)
    ensures r < |d| && r != skip
    ensures forall j :: 0 <= j < |d| && j != skip ==> d[r] <= d[j]
    ensures forall j :: 0 <= j < r && j != skip ==> d[r] < d[j]
    decreases |d|
  {
    var last := |d| - 1;
    var prefix := d[..last];
    if last == skip then
      ArgMinExcept(prefix, skip)
    else if !HasCandidate(prefix, skip) then
      last
    else
      var m := ArgMinExcept(prefix, skip);
      if d[last] < d[m] then last else m
  }

  /** `argsort(dists)[0]`. */
  function Nearest(d: seq<real>): (r: nat)
    requires |d| > 0
    ensures r < |d|
    ensures forall j :: 0 <= j < |d| ==> d[r] <= d[j]
  {
    ArgMinExcept(d, -1)
  }

  /** `argsort(dists)[1]`, the closest row once the nearest is set aside. */
  function SecondNearest(d: seq<real>): (r: nat)
    requires |d| > 1
    ensures r < |d| && r != Nearest(d)
    ensures forall j :: 0 <= j < |d| && j != Nearest(d) ==> d[r] <= d[j]
  {
    ArgMinExcept(d, Nearest(d))
  }

  /** Snap-to-corpus: the second-nearest row when the draw is below the
      mutation rate and there are at least two rows, otherwise the nearest.
      Either way no row other than the nearest is strictly closer. */
  function Snap(d: seq<real>, draw: real, rate: real): (r: nat)
    requires |d| > 0
    ensures r < |d|
    ensures forall j :: 0 <= j < |d| && j != Nearest(d) ==> d[r] <= d[j]
    ensures r == Nearest(d) <==> !(draw < rate && |d| > 1)
  {
    if draw < rate && |d| > 1 then SecondNearest(d) else Nearest(d)
  }

  /** A vector equal to a corpus row is at distance 0 from its nearest row. */
  lemma NearestOfRowIsExact(t: Table, k: nat)
    requires t.Valid() && k < |t.rows|
    ensures Distances(t, t.rows[k].vector)[Nearest(Distances(t, t.rows[k].vector))] == 0.0
  {
    var d := Distances(t, t.rows[k].vector);
    SqDistSelf(t.rows[k].vector);
    assert d[k] == 0.0;
  }
}

=== FILE: crossover.dfy ===
/** Individuals and the crossover operator `cruzar_memes` (evolutivo.py):
    blend the parents' vectors, mutate each, then snap each to a corpus row.
    The child keeps the mutated continuous vectors; the indices only name
    the nearest discrete assets. */
module Crossover {
  import opened Config
  import opened Vectors
  import opened Corpus
  import opened Mutation

  /** A meme: discrete asset indices plus the continuous genetic payload. */
  datatype Genome = Genome(imageIndex: nat, audioIndex: nat, image: seq<real>, audio: seq<real>)

  predicate Conforms(g: Genome, c: Corpora)
  {
    && g.imageIndex < |c.images.rows| && g.audioIndex < |c.audios.rows|
    && |g.image| == c.images.dim && |g.audio| == c.audios.dim
  }

  /** `criar_meme_aleatorio`: the rows picked by the two index draws, with
      their vectors copied verbatim. */
  function Seed(c: Corpora, imageDraw: nat, audioDraw: nat): (g: Genome)
    requires c.Valid()
    requires imageDraw < |c.images.rows| && audioDraw < |c.audios.rows|
    ensures Conforms(g, c)
    ensures g.image == c.images.rows[g.imageIndex].vector
    ensures g.audio == c.audios.rows[g.audioIndex].vector
  {
    Genome(imageDraw, audioDraw, c.images.rows[imageDraw].vector, c.audios.rows[audioDraw].vector)
  }

  /** Arithmetic crossover, `np.mean([a, b], axis=0)`. */
  function Midpoint(a: seq<real>, b: seq<real>): (r: seq<real>)
    requires |a| == |b|
    ensures |r| == |a|
  {
    seq(|a|, i requires 0 <= i < |a| => (a[i] + b[i]) / 2.0)
  }

  /** Uniform crossover: coordinate i comes from `a` when picks[i] holds. */
  function PickEach(a: seq<real>, b: seq<real>, picks: seq<bool>): (r: seq<real>)
    requires |a| == |b| == |picks|
    ensures |r| == |a|
  {
    seq(|a|, i requires 0 <= i < |a| => if picks[i] then a[i] else b[i])
  }

  /** Every coordinate of an arithmetic child lies between the parents'
      coordinates and the blend does not depend on the parents' order. */
  lemma MidpointBetween(a: seq<real>, b: seq<real>)
    requires |a| == |b|
    ensures Midpoint(a, b) == Midpoint(b, a)
    ensures forall i :: 0 <= i < |a| ==>
      (a[i] <= Midpoint(a, b)[i] <= b[i]) || (b[i] <= Midpoint(a, b)[i] <= a[i])
  {
  }

  /** Every coordinate of a uniform child is one of its parents' coordinates,
      and flipping every pick swaps the parents. */
  lemma PickEachFromParents(a: seq<real>, b: seq<real>, picks: seq<bool>)
    requires |a| == |b| == |picks|
    ensures forall i :: 0 <= i < |a| ==> PickEach(a, b, picks)[i] in {a[i], b[i]}
    ensures PickEach(b, a, seq(|picks|, i requires 0 <= i < |picks| => !picks[i])) == PickEach(a, b, picks)
  {
  }

  /** The draws one call of `cruzar_memes` consumes. */
  datatype CrossDraws = CrossDraws(
    style: real,                   // random.random() < 0.5 selects the midpoint
    imagePicks: seq<bool>,         // random.choice([a, b]) per image coordinate
    audioPicks: seq<bool>,         // random.choice([a, b]) per audio coordinate
    imageMutation: MutationDraws,
    audioMutation: MutationDraws,
    imageSnap: real,               // random.random() < rate selects the second-nearest image
    audioSnap: real)               // the same for the audio

  predicate WellFormedCross(d: CrossDraws, c: Corpora, rate: real)
  {
    && |d.imagePicks| == c.images.dim
    && |d.audioPicks| == c.audios.dim
    && WellFormed(d.imageMutation, c.images.dim, StatsOf(Image), rate)
    && WellFormed(d.audioMutation, c.audios.dim, StatsOf(Audio), rate)
  }

  function Blend(a: seq<real>, b: seq<real>, style: real, picks: seq<bool>): (r: seq<real>)
    requires |a| == |b| == |picks|
    ensures |r| == |a|
  {
    if style < 0.5 then Midpoint(a, b) else PickEach(a, b, picks)
  }

  /** Coordinates the mutation leaves alone show the crossover branch: the
      parents' midpoint, or one parent's coordinate. */
  predicate Inherits(child: seq<real>, a: seq<real>, b: seq<real>, style: real, md: MutationDraws, rate: real)
    requires |child| == |a| == |b|
  {
    forall i :: 0 <= i < |child| && (md.gate >= rate || i !in Picked(md.sites)) ==>
      if style < 0.5 then child[i] == (a[i] + b[i]) / 2.0
      else child[i] == a[i] || child[i] == b[i]
  }

  /** `cruzar_memes([p1, p2])` at mutation rate `rate`. */
  function Cross(p1: Genome, p2: Genome, c: Corpora, rate: real, d: CrossDraws): (child: Genome)
    requires c.Valid() && Conforms(p1, c) && Conforms(p2, c)
    requires WellFormedCross(d, c, rate)
    ensures Conforms(child, c)
    ensures Inherits(child.image, p1.image, p2.image, d.style, d.imageMutation, rate)
    ensures Inherits(child.audio, p1.audio, p2.audio, d.style, d.audioMutation, rate)
    ensures child.imageIndex == Snap(Distances(c.images, child.image), d.imageSnap, rate)
    ensures child.audioIndex == Snap(Distances(c.audios, child.audio), d.audioSnap, rate)
  {
    var image := Mutate(Blend(p1.image, p2.image, d.style, d.imagePicks), Image, rate, d.imageMutation);
    var audio := Mutate(Blend(p1.audio, p2.audio, d.style, d.audioPicks), Audio, rate, d.audioMutation);
    var imageIndex := Snap(Distances(c.images, image), d.imageSnap, rate);
    var audioIndex := Snap(Distances(c.audios, audio), d.audioSnap, rate);
    Genome(imageIndex, audioIndex, image, audio)
  }
}

=== FILE: engine.dfy ===
/** One generation of the interactive main loop of evolutivo.py (lines
    222-312): rate the population through the score cache, record the
    generation's average, breed the next population at the current mutation
    rate, then let the controller adapt the rate. */
module Engine {
  import opened Config
  import opened Vectors
  import opened Sorting
  import opened Corpus
  import opened Crossover
  import opened Mating
  import opened Controller
  import opened Cache

  /** Everything the loop carries from one generation to the next. */
  datatype EngineState = EngineState(
    adaptive: AdaptiveState,
    cache: Scores,
    population: seq<Genome>,
    history: seq<real>,
    best: seq<Evaluation>)

  /** The outside world's contribution to one generation: the rater's answers
      and the random draws of the two breeding phases. */
  datatype GenerationDraws = GenerationDraws(
    ratings: seq<Rating>,
    phase1: seq<PartnerDraw>,
    phase2: seq<PairDraw>)

  /** The state the loop starts from (lines 214-219), for an initial
      population of seeds. */
  function Start(population: seq<Genome>): (s: EngineState)
    ensures s.adaptive == Initial && s.cache == map[] && s.population == population
    ensures s.history == [] && s.best == []
  {
    EngineState(Initial, map[], population, [], [])
  }

  /** What holds between generations: the controller is in range, the cache
      holds only scores of pairs drawn from the tables, and every individual
      fits the corpora. */
  ghost predicate Invariant(s: EngineState, c: Corpora)
  {
    && Controller.Valid(s.adaptive)
    && NoMarkers(s.cache)
    && InRange(s.cache, c)
    && (forall i :: 0 <= i < |s.population| ==> Conforms(s.population[i], c))
  }

  function ScoresOf(evals: seq<Evaluation>): (r: seq<real>)
    ensures |r| == |evals|
    ensures forall i :: 0 <= i < |evals| ==> r[i] == evals[i].score
  {
    seq(|evals|, i requires 0 <= i < |evals| => evals[i].score)
  }

  /** The score the cache holds for each individual, in population order. */
  function CachedScores(population: seq<Genome>, cache: Scores): (r: seq<real>)
    requires NoMarkers(cache)
    requires forall i :: 0 <= i < |population| ==> KeyOf(population[i]) in cache
    ensures |r| == |population|
    ensures forall i :: 0 <= i < |population| ==> cache[KeyOf(population[i])] == Score(r[i])
  {
    seq(|population|, i requires 0 <= i < |population| => cache[KeyOf(population[i])].value)
  }

  /** The rows of `avaliacoes` after a full pass: each individual with the
      score the cache holds for it, in population order. */
  function Evaluations(population: seq<Genome>, cache: Scores): (r: seq<Evaluation>)
    requires NoMarkers(cache)
    requires forall i :: 0 <= i < |population| ==> KeyOf(population[i]) in cache
    ensures |r| == |population|
    ensures forall i :: 0 <= i < |r| ==> r[i].genome == population[i]
    ensures forall i :: 0 <= i < |r| ==> cache[KeyOf(population[i])] == Score(r[i].score)
  {
    seq(|population|, i requires 0 <= i < |population| =>
      Evaluation(cache[KeyOf(population[i])].value, population[i]))
  }

  /** The next population's children came out of `gerar_nova_populacao` run on
      `evals`, which consumed the first `consumed1` phase 1 draws and the first
      `consumed2` phase 2 draws: distinct couples, the first EliteChildren and
      only they with the best individual as a parent, each child the crossover
      of the first draw of its couple, in draw order within a phase; every
      consumed draw's couple is among the children's, and a phase stops short
      of its draws only once its share is complete. */
  ghost predicate BredFrom(children: seq<Child>, evals: seq<Evaluation>, c: Corpora, rate: real, d: GenerationDraws,
                           consumed1: nat, consumed2: nat)
    requires c.Valid()
    requires PartnerDrawsValid(d.phase1, |evals|, c, rate) && PairDrawsValid(d.phase2, |evals|, c, rate)
  {
    var parents := Parents(Ranked(evals));
    && ParentsConform(parents, c)
    && Offspring(parents, c, rate, d.phase1, d.phase2, children, consumed1, consumed2)
    && DistinctCouples(children)
    && (forall k :: 0 <= k < |children| ==> (children[k].first == 0 <==> k < EliteChildren))
    && (forall k :: 0 <= k < |children| && children[k].first == 0 ==>
          FromPartnerDraw(children[k], parents, c, rate, d.phase1))
    && (forall k :: 0 <= k < |children| && children[k].first != 0 ==>
          FromPairDraw(children[k], parents, c, rate, d.phase2))
    && (forall k, l :: 0 <= k < l < |children| && (l < EliteChildren || EliteChildren <= k) ==>
          children[k].draw < children[l].draw)
    && consumed1 <= |d.phase1| && consumed2 <= |d.phase2|
    && (forall t :: 0 <= t < consumed1 ==> Couple(0, d.phase1[t].partner) in CouplesOf(children))
    && (forall t :: 0 <= t < consumed2 ==> CoupleOf(d.phase2[t].first, d.phase2[t].second) in CouplesOf(children))
    && (consumed1 < |d.phase1| ==> |children| >= EliteChildren)
    && (|children| < EliteChildren ==> consumed1 == |d.phase1| && consumed2 == 0)
    && (EliteChildren <= |children| < PopulationSize ==> consumed2 == |d.phase2|)
  }

  /** Whether the first stop request among the answers asks for the results
      screen. */
  predicate RequestsResults(ratings: seq<Rating>)
    decreases |ratings|
  {
    if ratings == [] then false
    else if ratings[0].Stop? then ratings[0].showResults
    else RequestsResults(ratings[1..])
  }

  /** The stop request the evaluation loop acts on is the first one. */
  lemma {:induction false} FirstStopDecides(ratings: seq<Rating>, j: nat)
    requires j < |ratings| && ratings[j].Stop?
    requires forall i :: 0 <= i < j ==> !ratings[i].Stop?
    ensures RequestsResults(ratings) == ratings[j].showResults
    decreases j
  {
    if j > 0 {
      assert !ratings[0].Stop?;
      FirstStopDecides(ratings[1..], j - 1);
    }
  }

  lemma StartIsInvariant(population: seq<Genome>, c: Corpora)
    requires forall i :: 0 <= i < |population| ==> Conforms(population[i], c)
    ensures Invariant(Start(population), c)
  {
  }

  /** An evaluation that ran to the end visited every individual in order. */
  lemma CompletedEvaluation(s: EngineState, c: Corpora, ratings: seq<Rating>,
                            cache: Scores, evals: seq<Evaluation>, repeats: nat, asked: seq<Key>)
    requires Invariant(s, c) && |ratings| >= |s.population|
    requires Progress(s.population, s.cache, ratings, cache, evals, repeats, asked, |s.population|, false)
    ensures NoMarkers(cache)
    ensures |evals| == |s.population|
    ensures forall i :: 0 <= i < |evals| ==> evals[i].genome == s.population[i]
    ensures forall i :: 0 <= i < |s.population| ==> KeyOf(s.population[i]) in cache
    ensures ScoresOf(evals) == CachedScores(s.population, cache)
    ensures evals == Evaluations(s.population, cache)
  {
    assert Aligned(s.population, s.cache, evals, |s.population|);
    assert NoMarkers(cache) by {
      forall k | k in cache ensures cache[k].Score? {
        if k in s.cache {
          assert cache[k] == s.cache[k];
        }
      }
    }
    var a := ScoresOf(evals);
    var b := CachedScores(s.population, cache);
    forall i | 0 <= i < |a| ensures a[i] == b[i] {
      assert evals[i].genome == s.population[i];
      assert cache[KeyOf(evals[i].genome)] == Score(evals[i].score);
    }
  }

  /** A stopped evaluation leaves a cache of scores behind, with one
      evaluation per individual visited before the stop, and it stopped on
      the first stop request among the answers. */
  lemma StoppedEvaluation(s: EngineState, c: Corpora, ratings: seq<Rating>,
                          cache: Scores, evals: seq<Evaluation>, repeats: nat, asked: seq<Key>,
                          processed: nat)
    requires Invariant(s, c) && |ratings| >= |s.population|
    requires Progress(s.population, s.cache, ratings, cache, evals, repeats, asked, processed, true)
    ensures NoMarkers(cache)
    ensures |evals| == processed < |s.population|
    ensures forall i :: 0 <= i < |evals| ==> KeyOf(s.population[i]) in cache
    ensures ScoresOf(evals) == CachedScores(s.population[..|evals|], cache)
    ensures 0 < |asked| <= |ratings| && RequestsResults(ratings) == ratings[|asked| - 1].showResults
  {
    assert Aligned(s.population, s.cache, evals, processed);
    assert NoMarkers(cache) by {
      forall k | k in cache ensures cache[k].Score? {
        if k in s.cache {
          assert cache[k] == s.cache[k];
        }
      }
    }
    var a := ScoresOf(evals);
    var b := CachedScores(s.population[..|evals|], cache);
    forall i | 0 <= i < |a| ensures a[i] == b[i] {
      assert evals[i].genome == s.population[i];
      assert cache[KeyOf(evals[i].genome)] == Score(evals[i].score);
    }
    FirstStopDecides(ratings, |asked| - 1);
  }

  /** The questions of an evaluation: the cache gained only answers to
      them, each answer had its effect, the last is a stop exactly when the
      loop stopped, and they are the reference questions of the individuals
      visited. */
  lemma Questions(population: seq<Genome>, cache0: Scores, ratings: seq<Rating>,
                  cache: Scores, repeats: nat, asked: seq<Key>, processed: nat, stop: bool)
    requires Counts(population, ratings, repeats, asked, processed, stop)
    requires Answers(ratings, asked, cache, stop) && Grows(cache0, cache, asked)
    requires Tally(population, cache0, repeats, asked, processed, stop)
    requires stop <==> processed < |population|
    ensures forall k :: k in cache && k !in cache0 ==> k in asked
    ensures forall k :: k in cache && k !in cache0 ==> k in KeysOf(population)
    ensures |asked| <= |ratings| && Answers(ratings, asked, cache, stop)
    ensures stop <==> |asked| > 0 && ratings[|asked| - 1].Stop?
    ensures !stop ==> asked == NewPairs(population, cache0.Keys)
    ensures stop ==> asked == NewPairs(population[..processed], cache0.Keys) + [KeyOf(population[processed])]
  {
    TallyAsked(population, cache0, repeats, asked, processed, stop);
    if !stop {
      assert population[..processed] == population;
    }
  }

  /** The individual `melhores` gains at the end of a generation (lines
      130-131): the head of the evaluations ranked by score, which is the
      earliest individual with the highest cached score. */
  function RankedBest(population: seq<Genome>, cache: Scores): (e: Evaluation)
    requires NoMarkers(cache) && |population| > 0
    requires forall i :: 0 <= i < |population| ==> KeyOf(population[i]) in cache
    ensures exists i :: 0 <= i < |population| && e.genome == population[i]
                        && cache[KeyOf(population[i])] == Score(e.score)
                        && forall j :: 0 <= j < i ==> cache[KeyOf(population[j])].value < e.score
    ensures forall i :: 0 <= i < |population| ==> cache[KeyOf(population[i])].value <= e.score
  {
    var evals := Evaluations(population, cache);
    evals[FirstBest(evals, EvalScore)]
  }

  /** What the end of a fully rated generation makes of state `s`, the
      cache `cache` it left and its `hits`: the cache is kept, the average of
      the cached scores is recorded, the controller adapts to that average and
      the hits, the population is the children bred from the evaluations with
      `consumed1` and `consumed2` draws, and the ranked best is appended to
      `best`, no worse than any rated individual. */
  ghost predicate Advanced(s: EngineState, c: Corpora, d: GenerationDraws, cache: Scores, hits: nat,
                           t: EngineState, children: seq<Child>, consumed1: nat, consumed2: nat)
    requires c.Valid() && NoMarkers(cache) && |s.population| >= 2
    requires forall i :: 0 <= i < |s.population| ==> KeyOf(s.population[i]) in cache
    requires PartnerDrawsValid(d.phase1, |s.population|, c, s.adaptive.rate)
    requires PairDrawsValid(d.phase2, |s.population|, c, s.adaptive.rate)
  {
    && t.cache == cache
    && t.history == s.history + [Mean(CachedScores(s.population, cache))]
    && t.adaptive == Adapt(s.adaptive, Mean(CachedScores(s.population, cache)), hits)
    && |t.population| == |children| <= PopulationSize
    && (forall k :: 0 <= k < |children| ==> t.population[k] == children[k].genome)
    && BredFrom(children, Evaluations(s.population, cache), c, s.adaptive.rate, d, consumed1, consumed2)
    && t.best == s.best + [RankedBest(s.population, cache)]
    && (forall i :: 0 <= i < |s.population| ==> cache[KeyOf(s.population[i])].value <= t.best[|s.best|].score)
  }

  /** The breeding half of the end of a generation (lines 129-183): the
      evaluations of the rated population give the children, a conforming
      next population, and `best` extended by the ranked best. */
  method Breed(s: EngineState, c: Corpora, d: GenerationDraws, cache: Scores)
    returns (population: seq<Genome>, children: seq<Child>, best': seq<Evaluation>,
             consumed1: nat, consumed2: nat)
    requires c.Valid() && Invariant(s, c)
    requires |s.population| >= 2
    requires PartnerDrawsValid(d.phase1, |s.population|, c, s.adaptive.rate)
    requires PairDrawsValid(d.phase2, |s.population|, c, s.adaptive.rate)
    requires NoMarkers(cache)
    requires forall i :: 0 <= i < |s.population| ==> KeyOf(s.population[i]) in cache
    ensures BredFrom(children, Evaluations(s.population, cache), c, s.adaptive.rate, d, consumed1, consumed2)
    ensures |population| == |children| <= PopulationSize
    ensures forall k :: 0 <= k < |children| ==> population[k] == children[k].genome
    ensures forall k :: 0 <= k < |population| ==> Conforms(population[k], c)
    ensures best' == s.best + [RankedBest(s.population, cache)]
  {
    var evals := Evaluations(s.population, cache);
    population, children, best', consumed1, consumed2 :=
      NextGeneration(evals, s.best, c, s.adaptive.rate, d.phase1, d.phase2);
    ChildrenConform(children, Parents(Ranked(evals)), c, s.adaptive.rate, d.phase1, d.phase2);
  }

  /** The end of a generation that was rated in full (lines 293-311): the
      average is recorded, the next population is bred from the evaluations
      at the current rate, and the controller then adapts to the average and
      the `hits` cache hits. */
  method Advance(s: EngineState, c: Corpora, d: GenerationDraws, cache: Scores, hits: nat)
    returns (t: EngineState, children: seq<Child>, consumed1: nat, consumed2: nat)
    requires c.Valid() && Invariant(s, c)
    requires |s.population| >= 2
    requires PartnerDrawsValid(d.phase1, |s.population|, c, s.adaptive.rate)
    requires PairDrawsValid(d.phase2, |s.population|, c, s.adaptive.rate)
    requires NoMarkers(cache) && InRange(cache, c)
    requires forall i :: 0 <= i < |s.population| ==> KeyOf(s.population[i]) in cache
    ensures Invariant(t, c)
    ensures Advanced(s, c, d, cache, hits, t, children, consumed1, consumed2)
  {
    var evals := Evaluations(s.population, cache);
    assert ScoresOf(evals) == CachedScores(s.population, cache);
    var average := Mean(ScoresOf(evals));
    var population, best';
    population, children, best', consumed1, consumed2 := Breed(s, c, d, cache);
    t := EngineState(Adapt(s.adaptive, average, hits), cache, population,
                     s.history + [average], best');
  }

  /** The evaluation loop of one generation, reduced to what the rest of the
      generation uses: the cache grows and holds only scores, the first
      `rated` individuals are rated, `hits` of them were cache hits, and a
      stop comes with whether the first stop request asked for results. */
  method Rate(s: EngineState, c: Corpora, ratings: seq<Rating>)
    returns (cache: Scores, rated: nat, hits: nat, stopped: bool, results: bool, asked: seq<Key>)
    requires Invariant(s, c) && |ratings| >= |s.population|
    ensures NoMarkers(cache)
    ensures forall k :: k in s.cache ==> k in cache && cache[k] == s.cache[k]
    ensures forall k :: k in cache && k !in s.cache ==> k in asked
    ensures forall k :: k in cache && k !in s.cache ==> k in KeysOf(s.population)
    ensures InRange(cache, c)
    ensures rated <= |s.population| && (stopped <==> rated < |s.population|)
    ensures |asked| <= |ratings| && Answers(ratings, asked, cache, stopped)
    ensures stopped <==> |asked| > 0 && ratings[|asked| - 1].Stop?
    ensures !stopped ==> asked == NewPairs(s.population, s.cache.Keys)
    ensures stopped ==> asked == NewPairs(s.population[..rated], s.cache.Keys) + [KeyOf(s.population[rated])]
    ensures hits == Hits(s.population[..rated], s.cache.Keys)
    ensures forall i :: 0 <= i < rated ==> KeyOf(s.population[i]) in cache
    ensures stopped ==> results == RequestsResults(ratings)
  {
    var evals, processed;
    cache, evals, hits, asked, processed, stopped := EvaluateGeneration(s.population, s.cache, ratings);
    rated := processed;
    Questions(s.population, s.cache, ratings, cache, hits, asked, processed, stopped);
    ConformingKeys(s.population, c);
    if stopped {
      StoppedEvaluation(s, c, ratings, cache, evals, hits, asked, processed);
      results := ratings[|asked| - 1].showResults;
    } else {
      CompletedEvaluation(s, c, ratings, cache, evals, hits, asked);
      results := false;
    }
  }

  /** One pass of the generation loop (lines 222-312). The evaluation loop
      rates every individual, from the cache when the pair was seen before.
      A stop request ends the run: the cache keeps what was rated, and a
      request for the results screen first records the average of the
      ratings gathered so far (lines 256-263). Otherwise the generation's
      average is recorded, the next population is bred at the current rate,
      and only then is the rate adapted, from the average and the number of
      cache hits. */
  method Generation(s: EngineState, c: Corpora, d: GenerationDraws)
    returns (t: EngineState, stopped: bool, rated: nat, hits: nat, asked: seq<Key>,
             children: seq<Child>, consumed1: nat, consumed2: nat)
    requires c.Valid() && Invariant(s, c)
    requires |s.population| >= 2
    requires |d.ratings| >= |s.population|
    requires PartnerDrawsValid(d.phase1, |s.population|, c, s.adaptive.rate)
    requires PairDrawsValid(d.phase2, |s.population|, c, s.adaptive.rate)
    ensures Invariant(t, c)
    ensures forall k :: k in s.cache ==> k in t.cache && t.cache[k] == s.cache[k]
    ensures forall k :: k in t.cache && k !in s.cache ==> k in asked
    ensures |asked| <= |d.ratings| && Answers(d.ratings, asked, t.cache, stopped)
    ensures stopped <==> |asked| > 0 && d.ratings[|asked| - 1].Stop?
    ensures s.adaptive.rate <= t.adaptive.rate
    ensures rated <= |s.population| && hits == Hits(s.population[..rated], s.cache.Keys)
    ensures stopped ==> t.adaptive == s.adaptive && t.population == s.population && t.best == s.best
    ensures stopped ==>
      && rated < |s.population|
      && asked == NewPairs(s.population[..rated], s.cache.Keys) + [KeyOf(s.population[rated])]
      && children == [] && consumed1 == 0 && consumed2 == 0
      && (forall i :: 0 <= i < rated ==> KeyOf(s.population[i]) in t.cache)
      && t.history == if RequestsResults(d.ratings) && rated > 0
                      then s.history + [Mean(CachedScores(s.population[..rated], t.cache))]
                      else s.history
    ensures !stopped ==>
      && rated == |s.population|
      && hits == Hits(s.population, s.cache.Keys)
      && asked == NewPairs(s.population, s.cache.Keys)
      && (forall i :: 0 <= i < |s.population| ==> KeyOf(s.population[i]) in t.cache)
      && Advanced(s, c, d, t.cache, hits, t, children, consumed1, consumed2)
  {
    var cache, results;
    cache, rated, hits, stopped, results, asked := Rate(s, c, d.ratings);
    if stopped {
      var history := s.history;
      if results && rated > 0 {
        history := history + [Mean(CachedScores(s.population[..rated], cache))];
      }
      t := s.(cache := cache, history := history);
      children, consumed1, consumed2 := [], 0, 0;
    } else {
      assert s.population[..rated] == s.population;
      t, children, consumed1, consumed2 := Advance(s, c, d, cache, hits);
    }
  }
}

=== FILE: leaderboard.dfy ===
/** The ranking shown at the end of a session (`obter_top3_memes`, lines
    185-211 of evolutivo.py): every scored pair in the cache is resolved to its
    two file names, the list is sorted by score, best first, and the first
    three entries are kept. */
module Leaderboard {
  import opened Sorting
  import opened Corpus
  import opened Cache

  datatype Option<T> = None | Some(value: T)

  /** One listed meme: its score, its two corpus indices and file names. */
  datatype Entry = Entry(score: real, imageIndex: nat, audioIndex: nat,
                         imageName: string, audioName: string)

  function EntryScore(e: Entry): real
  {
    e.score
  }

  const Shown: nat := 3

  /** The entry built for one cache item. A marker is ignored (lines 193-194)
      and so is a pair whose indices fall outside the tables, the lookup that
      raises and is skipped (lines 195-206). */
  function Resolve(c: Corpora, key: Key, stored: Stored): (r: Option<Entry>)
    ensures r.Some? <==> stored.Score? && key.image < |c.images.rows| && key.audio < |c.audios.rows|
    ensures r.Some? ==>
      && r.value.score == stored.value
      && r.value.imageIndex == key.image && r.value.audioIndex == key.audio
      && r.value.imageName == c.images.rows[key.image].name
      && r.value.audioName == c.audios.rows[key.audio].name
  {
    match stored
    case Marker => None
    case Score(v) =>
      if key.image < |c.images.rows| && key.audio < |c.audios.rows| then
        Some(Entry(v, key.image, key.audio,
                   c.images.rows[key.image].name, c.audios.rows[key.audio].name))
      else None
  }

  /** The entries of the items that resolve, in the cache's insertion order
      (lines 192-206). The items are the cache dictionary's key/value pairs,
      so its keys are distinct; the contracts here hold for any sequence of
      pairs, repeated keys included. */
  function Eligible(items: seq<(Key, Stored)>, c: Corpora): (r: seq<Entry>)
    ensures |r| <= |items|
    ensures forall e :: e in r ==>
      exists i :: 0 <= i < |items| && Resolve(c, items[i].0, items[i].1) == Some(e)
    ensures forall i :: 0 <= i < |items| && Resolve(c, items[i].0, items[i].1).Some? ==>
      Resolve(c, items[i].0, items[i].1).value in r
    decreases |items|
  {
    if items == [] then []
    else
      var rest := Eligible(items[1..], c);
      assert forall i :: 1 <= i < |items| ==> items[i] == items[1..][i - 1];
      match Resolve(c, items[0].0, items[0].1)
      case None => rest
      case Some(e) => [e] + rest
  }

  /** The three best entries, best first (lines 187-211). */
  function TopThree(items: seq<(Key, Stored)>, c: Corpora): (r: seq<Entry>)
    ensures items == [] ==> r == []
    ensures |r| <= Shown
    ensures |r| == if |Eligible(items, c)| < Shown then |Eligible(items, c)| else Shown
    ensures SortedDesc(r, EntryScore)
    ensures multiset(r) <= multiset(Eligible(items, c))
  {
    if items == [] then []
    else
      var sorted := SortDesc(Eligible(items, c), EntryScore);
      var m := if |sorted| < Shown then |sorted| else Shown;
      assert sorted == sorted[..m] + sorted[m..];
      assert multiset(sorted) == multiset(sorted[..m]) + multiset(sorted[m..]);
      sorted[..m]
  }

  /** Nothing left off the list scores above anything on it. */
  lemma TopThreeDominates(items: seq<(Key, Stored)>, c: Corpora, e: Entry)
    requires e in multiset(Eligible(items, c)) - multiset(TopThree(items, c))
    ensures forall k :: 0 <= k < |TopThree(items, c)| ==> e.score <= TopThree(items, c)[k].score
  {
    var sorted := SortDesc(Eligible(items, c), EntryScore);
    var r := TopThree(items, c);
    if items != [] {
      PrefixDominates(sorted, EntryScore, |r|, e);
    }
  }

  /** The first place goes to the best-scored entry inserted earliest into the
      cache: the sort is stable, so among equal scores insertion order decides. */
  lemma TopThreeHead(items: seq<(Key, Stored)>, c: Corpora)
    requires |Eligible(items, c)| > 0
    ensures |TopThree(items, c)| > 0
    ensures TopThree(items, c)[0] == Eligible(items, c)[FirstBest(Eligible(items, c), EntryScore)]
  {
    SortHeadIsFirstBest(Eligible(items, c), EntryScore);
  }

  /** The caches the engine keeps hold no markers and only indices drawn from
      the tables (`Engine.Invariant`), so every cached pair reaches the ranking: the marker filter
      and the lookup guard never drop anything. `items` are the cache's items in
      insertion order. */
  lemma {:induction false} NothingDropped(items: seq<(Key, Stored)>, cache: Scores, c: Corpora)
    requires forall i :: 0 <= i < |items| ==> items[i].0 in cache && cache[items[i].0] == items[i].1
    requires NoMarkers(cache) && InRange(cache, c)
    ensures |Eligible(items, c)| == |items|
    decreases |items|
  {
    if items != [] {
      assert forall i :: 0 <= i < |items[1..]| ==> items[1..][i] == items[i + 1];
      NothingDropped(items[1..], cache, c);
      assert items[0].0 in cache;
      assert Resolve(c, items[0].0, items[0].1).Some?;
    }
  }
}

=== FILE: mating.dfy ===
/** Next-generation construction, `gerar_nova_populacao` (evolutivo.py).
    The evaluations are ranked best first; phase 1 mates the best individual
    with drawn partners until half the population exists, phase 2 mates drawn
    pairs from the rest until the population is full. A set of used
    unordered pairs keeps any pair from parenting twice. The source samples
    until the targets are met and need not stop; here each phase consumes a
    finite sequence of draws and stops when the draws run out. */
module Mating {
  import opened Config
  import opened Vectors
  import opened Sorting
  import opened Corpus
  import opened Crossover

  /** One row of `avaliacoes`: a score and the individual it belongs to. */
  datatype Evaluation = Evaluation(score: real, genome: Genome)

  function EvalScore(e: Evaluation): real { e.score }

  /** `avaliacoes.sort(key=..., reverse=True)`: best first, and evaluations
      with equal scores keep their order, which fixes the ranked index each
      individual is drawn by. */
  function Ranked(evals: seq<Evaluation>): (r: seq<Evaluation>)
    ensures |r| == |evals|
    ensures SortedDesc(r, EvalScore)
    ensures multiset(r) == multiset(evals)
    ensures forall v :: KeyRun(r, EvalScore, v) == KeyRun(evals, EvalScore, v)
  {
    SortDescIsStable(evals, EvalScore);
    SortDesc(evals, EvalScore)
  }

  /** `dados_pais`: the genomes in ranked order. */
  function Parents(ranked: seq<Evaluation>): (p: seq<Genome>)
    ensures |p| == |ranked|
  {
    seq(|ranked|, i requires 0 <= i < |ranked| => ranked[i].genome)
  }

  function Shifted(scores: seq<real>): (s: seq<real>)
    ensures |s| == |scores|
  {
    seq(|scores|, i requires 0 <= i < |scores| => scores[i] + WeightEpsilon)
  }

  /** `pesos_restantes`: the weights `(score + 1e-8) / total` dropped of the
      best individual's entry and renormalised. They form a distribution with
      every entry positive, so the uniform fallback for a failed weighted draw
      is never needed, and they equal the weights computed directly over the
      remaining individuals. */
  function SelectionWeights(scores: seq<real>): (w: seq<real>)
    requires |scores| >= 2
    requires forall i :: 0 <= i < |scores| ==> scores[i] >= 0.0
    ensures |w| == |scores| - 1
    ensures forall i :: 0 <= i < |w| ==> w[i] > 0.0
    ensures Sum(w) == 1.0
    ensures Sum(Shifted(scores[1..])) > 0.0
    ensures w == Scale(Shifted(scores[1..]), Sum(Shifted(scores[1..])))
  {
    var shifted := Shifted(scores);
    SumPositive(shifted);
    var weights := Scale(shifted, Sum(shifted));
    Renormalise(shifted);
    assert shifted[1..] == Shifted(scores[1..]);
    Normalised(shifted[1..]);
    Scale(weights[1..], Sum(weights[1..]))
  }

  /** Dropping the first weight and renormalising gives the weights computed
      directly over the rest. */
  lemma Renormalise(shifted: seq<real>)
    requires |shifted| >= 2
    requires forall i :: 0 <= i < |shifted| ==> shifted[i] > 0.0
    ensures Sum(shifted) > 0.0 && Sum(shifted[1..]) > 0.0
    ensures Sum(Scale(shifted, Sum(shifted))[1..]) > 0.0
    ensures Scale(Scale(shifted, Sum(shifted))[1..], Sum(Scale(shifted, Sum(shifted))[1..]))
         == Scale(shifted[1..], Sum(shifted[1..]))
  {
    SumPositive(shifted);
    var total := Sum(shifted);
    var rest := shifted[1..];
    SumPositive(rest);
    var restTotal := Sum(rest);
    ScaleTail(shifted, total);
    SumScale(rest, total);
    PositiveQuotient(restTotal, total);
    RescaleTwice(rest, restTotal, total);
  }

  /** Scaling by `total` and then by `restTotal / total` is scaling by
      `restTotal`. */
  lemma RescaleTwice(rest: seq<real>, restTotal: real, total: real)
    requires restTotal > 0.0 && total > 0.0
    ensures Scale(Scale(rest, total), restTotal / total) == Scale(rest, restTotal)
  {
    var w := Scale(Scale(rest, total), restTotal / total);
    var v := Scale(rest, restTotal);
    forall i | 0 <= i < |w|
      ensures w[i] == v[i]
    {
      DivideBoth(rest[i], restTotal, total);
    }
  }

  /** Positive entries divided by their sum form a distribution. */
  lemma Normalised(rest: seq<real>)
    requires |rest| > 0
    requires forall i :: 0 <= i < |rest| ==> rest[i] > 0.0
    ensures Sum(rest) > 0.0
    ensures Sum(Scale(rest, Sum(rest))) == 1.0
    ensures forall i :: 0 <= i < |rest| ==> Scale(rest, Sum(rest))[i] > 0.0
  {
    SumPositive(rest);
    var total := Sum(rest);
    SumScale(rest, total);
    SelfQuotient(total);
    forall i | 0 <= i < |rest| ensures Scale(rest, total)[i] > 0.0 {
      PositiveQuotient(rest[i], total);
    }
  }

  lemma SelfQuotient(t: real)
    requires t > 0.0
    ensures t / t == 1.0
  {
  }

  lemma PositiveQuotient(x: real, t: real)
    requires x > 0.0 && t > 0.0
    ensures x / t > 0.0
  {
  }

  lemma DivideBoth(x: real, s: real, t: real)
    requires s > 0.0 && t > 0.0
    ensures (x / t) / (s / t) == x / s
  {
  }

  /** An unordered pair of ranked indices, `tuple(sorted(...))`. */
  datatype Couple = Couple(lo: nat, hi: nat)

  function CoupleOf(i: nat, j: nat): (c: Couple)
    ensures c.lo <= c.hi
    ensures (c.lo == i && c.hi == j) || (c.lo == j && c.hi == i)
  {
    if i <= j then Couple(i, j) else Couple(j, i)
  }

  /** A child with the ranked indices of its parents (in the order they were
      handed to the crossover) and the index of the draw that produced it. */
  datatype Child = Child(first: nat, second: nat, draw: nat, genome: Genome)

  function CoupleOfChild(ch: Child): Couple
  {
    CoupleOf(ch.first, ch.second)
  }

  function CouplesOf(children: seq<Child>): set<Couple>
  {
    set k | 0 <= k < |children| :: CoupleOfChild(children[k])
  }

  ghost predicate DistinctCouples(children: seq<Child>)
  {
    forall k, l :: 0 <= k < l < |children| ==> CoupleOfChild(children[k]) != CoupleOfChild(children[l])
  }

  /** Phase 1 draw: a partner for the best individual and the crossover's draws. */
  datatype PartnerDraw = PartnerDraw(partner: nat, cross: CrossDraws)

  /** Phase 2 draw: two distinct individuals and the crossover's draws. */
  datatype PairDraw = PairDraw(first: nat, second: nat, cross: CrossDraws)

  ghost predicate ParentsConform(parents: seq<Genome>, c: Corpora)
  {
    forall i :: 0 <= i < |parents| ==> Conforms(parents[i], c)
  }

  /** Children in the order their draws were made. */
  ghost predicate DrawOrdered(children: seq<Child>)
  {
    forall k, l :: 0 <= k < l < |children| ==> children[k].draw < children[l].draw
  }

  lemma AppendLaterDraw(children: seq<Child>, ch: Child)
    requires DrawOrdered(children)
    requires forall k :: 0 <= k < |children| ==> children[k].draw < ch.draw
    ensures DrawOrdered(children + [ch])
  {
    var s := children + [ch];
    forall k, l | 0 <= k < l < |s| ensures s[k].draw < s[l].draw {
      assert s[k] == children[k];
    }
  }

  /** Every child comes from the first draw that named its couple: a later
      draw of the same couple finds it used and is discarded. */
  ghost predicate FirstPartnerDraws(children: seq<Child>, draws: seq<PartnerDraw>)
  {
    forall k, t :: 0 <= k < |children| && 0 <= t < children[k].draw && t < |draws| ==>
      Couple(0, draws[t].partner) != CoupleOfChild(children[k])
  }

  ghost predicate FirstPairDraws(children: seq<Child>, draws: seq<PairDraw>)
  {
    forall k, t :: 0 <= k < |children| && 0 <= t < children[k].draw && t < |draws| ==>
      CoupleOf(draws[t].first, draws[t].second) != CoupleOfChild(children[k])
  }

  /** A child whose couple no earlier draw used is the first of its couple. */
  lemma AppendFirstPartner(children: seq<Child>, ch: Child, draws: seq<PartnerDraw>, used: set<Couple>, consumed: nat)
    requires FirstPartnerDraws(children, draws)
    requires ch.draw == consumed
    requires forall t :: 0 <= t < consumed && t < |draws| ==> Couple(0, draws[t].partner) in used
    requires CoupleOfChild(ch) !in used
    ensures FirstPartnerDraws(children + [ch], draws)
  {
    var s := children + [ch];
    forall k, t | 0 <= k < |s| && 0 <= t < s[k].draw && t < |draws|
      ensures Couple(0, draws[t].partner) != CoupleOfChild(s[k])
    {
      if k < |children| {
        assert s[k] == children[k];
      }
    }
  }

  lemma AppendFirstPair(children: seq<Child>, ch: Child, draws: seq<PairDraw>, used: set<Couple>, consumed: nat)
    requires FirstPairDraws(children, draws)
    requires ch.draw == consumed
    requires forall t :: 0 <= t < consumed && t < |draws| ==> CoupleOf(draws[t].first, draws[t].second) in used
    requires CoupleOfChild(ch) !in used
    ensures FirstPairDraws(children + [ch], draws)
  {
    var s := children + [ch];
    forall k, t | 0 <= k < |s| && 0 <= t < s[k].draw && t < |draws|
      ensures CoupleOf(draws[t].first, draws[t].second) != CoupleOfChild(s[k])
    {
      if k < |children| {
        assert s[k] == children[k];
      }
    }
  }

  /** Partners come from the non-best pool, indices 1 .. n-1. */
  ghost predicate PartnerDrawsValid(draws: seq<PartnerDraw>, n: nat, c: Corpora, rate: real)
  {
    forall t :: 0 <= t < |draws| ==>
      1 <= draws[t].partner < n && WellFormedCross(draws[t].cross, c, rate)
  }

  /** Pairs come from the non-best pool, drawn without replacement. */
  ghost predicate PairDrawsValid(draws: seq<PairDraw>, n: nat, c: Corpora, rate: real)
  {
    forall t :: 0 <= t < |draws| ==>
      && 1 <= draws[t].first < n && 1 <= draws[t].second < n
      && draws[t].first != draws[t].second
      && WellFormedCross(draws[t].cross, c, rate)
  }

  /** A phase 1 child: the best individual crossed with the partner of an
      accepted draw. */
  ghost predicate FromPartnerDraw(ch: Child, parents: seq<Genome>, c: Corpora, rate: real, draws: seq<PartnerDraw>)
    requires c.Valid() && ParentsConform(parents, c) && PartnerDrawsValid(draws, |parents|, c, rate)
  {
    && ch.first == 0 && ch.draw < |draws|
    && ch.second == draws[ch.draw].partner
    && ch.genome == Cross(parents[0], parents[ch.second], c, rate, draws[ch.draw].cross)
  }

  /** Every child so far came from an accepted phase 1 draw before `consumed`. */
  ghost predicate AllFromPartnerDraws(children: seq<Child>, parents: seq<Genome>, c: Corpora, rate: real,
                                      draws: seq<PartnerDraw>, consumed: nat)
    requires c.Valid() && ParentsConform(parents, c) && PartnerDrawsValid(draws, |parents|, c, rate)
  {
    forall k :: 0 <= k < |children| ==>
      FromPartnerDraw(children[k], parents, c, rate, draws) && children[k].draw < consumed
  }

  lemma ExtendPartnerChildren(children: seq<Child>, ch: Child, parents: seq<Genome>, c: Corpora, rate: real,
                              draws: seq<PartnerDraw>, consumed: nat)
    requires c.Valid() && ParentsConform(parents, c) && PartnerDrawsValid(draws, |parents|, c, rate)
    requires AllFromPartnerDraws(children, parents, c, rate, draws, consumed)
    requires FromPartnerDraw(ch, parents, c, rate, draws) && ch.draw <= consumed
    ensures AllFromPartnerDraws(children + [ch], parents, c, rate, draws, consumed + 1)
  {
    var s := children + [ch];
    forall k | 0 <= k < |s|
      ensures FromPartnerDraw(s[k], parents, c, rate, draws) && s[k].draw < consumed + 1
    {
      if k < |children| {
        assert s[k] == children[k];
      }
    }
  }

  /** Every child so far came from an accepted phase 2 draw before `consumed`. */
  ghost predicate AllFromPairDraws(children: seq<Child>, parents: seq<Genome>, c: Corpora, rate: real,
                                   draws: seq<PairDraw>, consumed: nat)
    requires c.Valid() && ParentsConform(parents, c) && PairDrawsValid(draws, |parents|, c, rate)
  {
    forall k :: 0 <= k < |children| ==>
      FromPairDraw(children[k], parents, c, rate, draws) && children[k].draw < consumed
  }

  lemma ExtendPairChildren(children: seq<Child>, ch: Child, parents: seq<Genome>, c: Corpora, rate: real,
                           draws: seq<PairDraw>, consumed: nat)
    requires c.Valid() && ParentsConform(parents, c) && PairDrawsValid(draws, |parents|, c, rate)
    requires AllFromPairDraws(children, parents, c, rate, draws, consumed)
    requires FromPairDraw(ch, parents, c, rate, draws) && ch.draw <= consumed
    ensures AllFromPairDraws(children + [ch], parents, c, rate, draws, consumed + 1)
  {
    var s := children + [ch];
    forall k | 0 <= k < |s|
      ensures FromPairDraw(s[k], parents, c, rate, draws) && s[k].draw < consumed + 1
    {
      if k < |children| {
        assert s[k] == children[k];
      }
    }
  }

  /** A phase 2 child: the pair of an accepted draw crossed in drawn order. */
  ghost predicate FromPairDraw(ch: Child, parents: seq<Genome>, c: Corpora, rate: real, draws: seq<PairDraw>)
    requires c.Valid() && ParentsConform(parents, c) && PairDrawsValid(draws, |parents|, c, rate)
  {
    && ch.draw < |draws|
    && ch.first == draws[ch.draw].first && ch.second == draws[ch.draw].second
    && ch.genome == Cross(parents[ch.first], parents[ch.second], c, rate, draws[ch.draw].cross)
  }

  /** Every child traced to a draw of either phase conforms to the corpora,
      since crossing conforming parents yields a conforming genome. */
  lemma ChildrenConform(children: seq<Child>, parents: seq<Genome>, c: Corpora, rate: real,
                        phase1: seq<PartnerDraw>, phase2: seq<PairDraw>)
    requires c.Valid() && ParentsConform(parents, c)
    requires PartnerDrawsValid(phase1, |parents|, c, rate) && PairDrawsValid(phase2, |parents|, c, rate)
    requires forall k :: 0 <= k < |children| && children[k].first == 0 ==>
      FromPartnerDraw(children[k], parents, c, rate, phase1)
    requires forall k :: 0 <= k < |children| && children[k].first != 0 ==>
      FromPairDraw(children[k], parents, c, rate, phase2)
    ensures forall k :: 0 <= k < |children| ==> Conforms(children[k].genome, c)
  {
    forall k | 0 <= k < |children| ensures Conforms(children[k].genome, c) {
      if children[k].first == 0 {
        assert FromPartnerDraw(children[k], parents, c, rate, phase1);
      } else {
        assert FromPairDraw(children[k], parents, c, rate, phase2);
      }
    }
  }

  lemma CouplesOfAppend(children: seq<Child>, ch: Child)
    ensures CouplesOf(children + [ch]) == CouplesOf(children) + {CoupleOfChild(ch)}
  {
    var s := children + [ch];
    forall x | x in CouplesOf(s) ensures x in CouplesOf(children) + {CoupleOfChild(ch)} {
      var k :| 0 <= k < |s| && CoupleOfChild(s[k]) == x;
      if k < |children| {
        assert CoupleOfChild(children[k]) == x;
      }
    }
    forall x | x in CouplesOf(children) ensures x in CouplesOf(s) {
      var k :| 0 <= k < |children| && CoupleOfChild(children[k]) == x;
      assert s[k] == children[k];
    }
    assert s[|children|] == ch;
  }

  /** Appending a child whose couple is new keeps the couples distinct. */
  lemma AppendFreshCouple(children: seq<Child>, ch: Child)
    requires DistinctCouples(children)
    requires CoupleOfChild(ch) !in CouplesOf(children)
    ensures DistinctCouples(children + [ch])
  {
    var s := children + [ch];
    forall k, l | 0 <= k < l < |s| ensures CoupleOfChild(s[k]) != CoupleOfChild(s[l]) {
      if l == |children| {
        assert s[k] == children[k];
        assert CoupleOfChild(children[k]) in CouplesOf(children);
      }
    }
  }

  /** The couples the best individual can form with a pool of n individuals. */
  function TopCouples(n: nat): set<Couple>
  {
    set p | 1 <= p < n :: Couple(0, p)
  }

  lemma {:induction false} TopCouplesSize(n: nat)
    requires n >= 1
    ensures |TopCouples(n)| == n - 1
  {
    if n > 1 {
      TopCouplesSize(n - 1);
      assert TopCouples(n) == TopCouples(n - 1) + {Couple(0, n - 1)};
    } else {
      assert TopCouples(n) == {};
    }
  }

  lemma {:induction false} SubsetSize<T>(a: set<T>, b: set<T>)
    requires a <= b
    ensures |a| <= |b|
    decreases |a|
  {
    if a != {} {
      var x :| x in a;
      SubsetSize(a - {x}, b - {x});
    }
  }

  lemma {:induction false} DistinctCouplesCount(children: seq<Child>)
    requires DistinctCouples(children)
    ensures |CouplesOf(children)| == |children|
  {
    if children != [] {
      var init, last := children[..|children| - 1], children[|children| - 1];
      assert children == init + [last];
      assert DistinctCouples(init) by {
        forall k, l | 0 <= k < l < |init| ensures CoupleOfChild(init[k]) != CoupleOfChild(init[l]) {
          assert init[k] == children[k] && init[l] == children[l];
        }
      }
      forall k | 0 <= k < |init| ensures CoupleOfChild(init[k]) != CoupleOfChild(last) {
        assert init[k] == children[k];
      }
      DistinctCouplesCount(init);
      CouplesOfAppend(init, last);
    }
  }

  /** Phase 1 children have distinct partners besides the best, so there
      are at most n - 1 of them. */
  lemma TopChildrenBound(parents: seq<Genome>, c: Corpora, rate: real, draws: seq<PartnerDraw>,
                         children: seq<Child>, consumed: nat)
    requires c.Valid() && |parents| >= 1 && ParentsConform(parents, c) && PartnerDrawsValid(draws, |parents|, c, rate)
    requires DistinctCouples(children) && AllFromPartnerDraws(children, parents, c, rate, draws, consumed)
    ensures |children| <= |parents| - 1
  {
    DistinctCouplesCount(children);
    assert CouplesOf(children) <= TopCouples(|parents|) by {
      forall x | x in CouplesOf(children) ensures x in TopCouples(|parents|) {
        var k :| 0 <= k < |children| && x == CoupleOfChild(children[k]);
        assert FromPartnerDraw(children[k], parents, c, rate, draws);
      }
    }
    TopCouplesSize(|parents|);
    SubsetSize(CouplesOf(children), TopCouples(|parents|));
  }

  /** What phase 1 keeps true while it consumes its draws. */
  ghost predicate TopPhase(parents: seq<Genome>, c: Corpora, rate: real, draws: seq<PartnerDraw>,
                           children: seq<Child>, used: set<Couple>, consumed: nat)
    requires c.Valid() && ParentsConform(parents, c) && PartnerDrawsValid(draws, |parents|, c, rate)
  {
    && consumed <= |draws|
    && used == CouplesOf(children)
    && DistinctCouples(children)
    && AllFromPartnerDraws(children, parents, c, rate, draws, consumed)
    && forall t :: 0 <= t < consumed ==> Couple(0, draws[t].partner) in used
  }

  /** The state of the phase 1 loop: `TopPhase`, the children in draw
      order, each from the first draw of its couple, and, once `target` is
      reached, the last child from the last consumed draw. */
  ghost predicate TopLoop(parents: seq<Genome>, c: Corpora, rate: real, draws: seq<PartnerDraw>, target: nat,
                          children: seq<Child>, used: set<Couple>, consumed: nat)
    requires c.Valid() && ParentsConform(parents, c) && PartnerDrawsValid(draws, |parents|, c, rate)
  {
    && TopPhase(parents, c, rate, draws, children, used, consumed)
    && |children| <= target && DrawOrdered(children) && FirstPartnerDraws(children, draws)
    && (|children| == target && consumed > 0 ==> |children| > 0 && children[|children| - 1].draw == consumed - 1)
  }

  /** A phase 1 draw whose couple is new yields a child. */
  lemma TopAccept(parents: seq<Genome>, c: Corpora, rate: real, draws: seq<PartnerDraw>,
                  children: seq<Child>, used: set<Couple>, consumed: nat, ch: Child)
    requires c.Valid() && ParentsConform(parents, c) && PartnerDrawsValid(draws, |parents|, c, rate)
    requires TopPhase(parents, c, rate, draws, children, used, consumed)
    requires consumed < |draws| && Couple(0, draws[consumed].partner) !in used
    requires ch == Child(0, draws[consumed].partner, consumed,
                         Cross(parents[0], parents[draws[consumed].partner], c, rate, draws[consumed].cross))
    ensures CoupleOfChild(ch) == Couple(0, draws[consumed].partner)
    ensures TopPhase(parents, c, rate, draws, children + [ch], used + {CoupleOfChild(ch)}, consumed + 1)
  {
    var couple := Couple(0, draws[consumed].partner);
    assert CoupleOfChild(ch) == couple;
    assert FromPartnerDraw(ch, parents, c, rate, draws);
    ExtendPartnerChildren(children, ch, parents, c, rate, draws, consumed);
    AppendFreshCouple(children, ch);
    CouplesOfAppend(children, ch);
    forall t | 0 <= t < consumed + 1 ensures Couple(0, draws[t].partner) in used + {couple} {
      if t < consumed {
        assert Couple(0, draws[t].partner) in used;
      }
    }
  }

  /** A phase 1 draw whose couple was used is consumed without a child. */
  lemma TopReject(parents: seq<Genome>, c: Corpora, rate: real, draws: seq<PartnerDraw>,
                  children: seq<Child>, used: set<Couple>, consumed: nat)
    requires c.Valid() && ParentsConform(parents, c) && PartnerDrawsValid(draws, |parents|, c, rate)
    requires TopPhase(parents, c, rate, draws, children, used, consumed)
    requires consumed < |draws| && Couple(0, draws[consumed].partner) in used
    ensures TopPhase(parents, c, rate, draws, children, used, consumed + 1)
  {
    forall t | 0 <= t < consumed + 1 ensures Couple(0, draws[t].partner) in used {
      if t < consumed {
        assert Couple(0, draws[t].partner) in used;
      }
    }
  }

  /** The loop state survives a phase 1 draw whose couple is new. */
  lemma TopLoopAccept(parents: seq<Genome>, c: Corpora, rate: real, draws: seq<PartnerDraw>, target: nat,
                      children: seq<Child>, used: set<Couple>, consumed: nat, ch: Child)
    requires c.Valid() && ParentsConform(parents, c) && PartnerDrawsValid(draws, |parents|, c, rate)
    requires TopLoop(parents, c, rate, draws, target, children, used, consumed)
    requires |children| < target && consumed < |draws| && Couple(0, draws[consumed].partner) !in used
    requires ch == Child(0, draws[consumed].partner, consumed,
                         Cross(parents[0], parents[draws[consumed].partner], c, rate, draws[consumed].cross))
    ensures TopLoop(parents, c, rate, draws, target, children + [ch], used + {Couple(0, draws[consumed].partner)}, consumed + 1)
  {
    TopAccept(parents, c, rate, draws, children, used, consumed, ch);
    AppendLaterDraw(children, ch);
    AppendFirstPartner(children, ch, draws, used, consumed);
  }

  /** One iteration of phase 1: the next draw's couple is accepted unless
      it was used already. */
  method TopPhaseStep(parents: seq<Genome>, c: Corpora, rate: real, draws: seq<PartnerDraw>, target: nat,
                      children: seq<Child>, used: set<Couple>, consumed: nat)
    returns (children': seq<Child>, used': set<Couple>)
    requires c.Valid() && ParentsConform(parents, c) && PartnerDrawsValid(draws, |parents|, c, rate)
    requires TopLoop(parents, c, rate, draws, target, children, used, consumed)
    requires |children| < target && consumed < |draws|
    ensures TopLoop(parents, c, rate, draws, target, children', used', consumed + 1)
    ensures |children| <= |children'| <= |children| + 1
    ensures children'[..|children|] == children
    ensures |children'| > |children| ==> children'[|children|].draw == consumed
  {
    var d := draws[consumed];
    var couple := CoupleOf(0, d.partner);
    assert couple == Couple(0, d.partner);
    if couple !in used {
      var ch := Child(0, d.partner, consumed, Cross(parents[0], parents[d.partner], c, rate, d.cross));
      TopLoopAccept(parents, c, rate, draws, target, children, used, consumed, ch);
      children', used' := children + [ch], used + {couple};
      assert children'[..|children|] == children;
    } else {
      TopReject(parents, c, rate, draws, children, used, consumed);
      children', used' := children, used;
    }
  }

  /** Phase 1 (`while len(nova_populacao) < tam_populacao // 2`). At most
      n - 1 distinct partners exist, so when the pool is smaller than the
      target no draw sequence reaches it: the source then samples forever. */
  method PairWithTop(parents: seq<Genome>, c: Corpora, rate: real, target: nat, draws: seq<PartnerDraw>)
    returns (children: seq<Child>, used: set<Couple>, consumed: nat)
    requires c.Valid() && |parents| >= 1 && ParentsConform(parents, c)
    requires PartnerDrawsValid(draws, |parents|, c, rate)
    ensures TopOutcome(parents, c, rate, draws, target, children, consumed)
    ensures used == CouplesOf(children)
  {
    children, used, consumed := [], {}, 0;
    while |children| < target && consumed < |draws|
      invariant TopLoop(parents, c, rate, draws, target, children, used, consumed)
    {
      children, used := TopPhaseStep(parents, c, rate, draws, target, children, used, consumed);
      consumed := consumed + 1;
    }
    TopChildrenBound(parents, c, rate, draws, children, consumed);
    TopFinish(parents, c, rate, draws, target, children, used, consumed);
  }

  lemma TopFinish(parents: seq<Genome>, c: Corpora, rate: real, draws: seq<PartnerDraw>, target: nat,
                  children: seq<Child>, used: set<Couple>, consumed: nat)
    requires c.Valid() && ParentsConform(parents, c) && PartnerDrawsValid(draws, |parents|, c, rate)
    requires TopLoop(parents, c, rate, draws, target, children, used, consumed)
    requires |children| < target ==> consumed == |draws|
    requires |children| <= |parents| - 1
    ensures TopOutcome(parents, c, rate, draws, target, children, consumed)
  {
  }

  /** What phase 1 makes of its draws, given `consumed` of them were used:
      the children are the draws whose couple comes up for the first time, in
      draw order, each crossed from its draw; every consumed draw's couple is
      among theirs; and the phase stops at the draw that completes `target`
      children, or when the draws run out. */
  ghost predicate TopOutcome(parents: seq<Genome>, c: Corpora, rate: real, draws: seq<PartnerDraw>, target: nat,
                             children: seq<Child>, consumed: nat)
    requires c.Valid() && ParentsConform(parents, c) && PartnerDrawsValid(draws, |parents|, c, rate)
  {
    && consumed <= |draws| && |children| <= target && |children| <= |parents| - 1
    && DistinctCouples(children)
    && AllFromPartnerDraws(children, parents, c, rate, draws, consumed)
    && DrawOrdered(children)
    && FirstPartnerDraws(children, draws)
    && (forall t :: 0 <= t < consumed ==> Couple(0, draws[t].partner) in CouplesOf(children))
    && (|children| < target ==> consumed == |draws|)
    && (|children| == target && consumed > 0 ==> |children| > 0 && children[|children| - 1].draw == consumed - 1)
  }

  /** What phase 2 keeps true while it consumes its draws. */
  ghost predicate RestPhase(parents: seq<Genome>, c: Corpora, rate: real, draws: seq<PairDraw>, used0: set<Couple>,
                            children: seq<Child>, used: set<Couple>, consumed: nat)
    requires c.Valid() && ParentsConform(parents, c) && PairDrawsValid(draws, |parents|, c, rate)
  {
    && consumed <= |draws|
    && used == used0 + CouplesOf(children)
    && DistinctCouples(children)
    && (forall k :: 0 <= k < |children| ==> CoupleOfChild(children[k]) !in used0)
    && AllFromPairDraws(children, parents, c, rate, draws, consumed)
    && forall t :: 0 <= t < consumed ==> CoupleOf(draws[t].first, draws[t].second) in used
  }

  /** The state of the phase 2 loop, as `TopLoop` for phase 1. */
  ghost predicate RestLoop(parents: seq<Genome>, c: Corpora, rate: real, draws: seq<PairDraw>, used0: set<Couple>,
                           target: nat, children: seq<Child>, used: set<Couple>, consumed: nat)
    requires c.Valid() && ParentsConform(parents, c) && PairDrawsValid(draws, |parents|, c, rate)
  {
    && RestPhase(parents, c, rate, draws, used0, children, used, consumed)
    && |children| <= target && DrawOrdered(children) && FirstPairDraws(children, draws)
    && (|children| == target && consumed > 0 ==> |children| > 0 && children[|children| - 1].draw == consumed - 1)
  }

  /** A phase 2 draw whose couple is new yields a child. */
  lemma RestAccept(parents: seq<Genome>, c: Corpora, rate: real, draws: seq<PairDraw>, used0: set<Couple>,
                   children: seq<Child>, used: set<Couple>, consumed: nat, ch: Child)
    requires c.Valid() && ParentsConform(parents, c) && PairDrawsValid(draws, |parents|, c, rate)
    requires RestPhase(parents, c, rate, draws, used0, children, used, consumed)
    requires consumed < |draws| && CoupleOf(draws[consumed].first, draws[consumed].second) !in used
    requires ch == Child(draws[consumed].first, draws[consumed].second, consumed,
                         Cross(parents[draws[consumed].first], parents[draws[consumed].second], c, rate,
                               draws[consumed].cross))
    ensures RestPhase(parents, c, rate, draws, used0, children + [ch],
                      used + {CoupleOfChild(ch)}, consumed + 1)
  {
    assert FromPairDraw(ch, parents, c, rate, draws);
    ExtendPairChildren(children, ch, parents, c, rate, draws, consumed);
    FreshCouple(used0, children, used, ch);
    forall t | 0 <= t < consumed + 1
      ensures CoupleOf(draws[t].first, draws[t].second) in used + {CoupleOfChild(ch)}
    {
      if t < consumed {
        assert CoupleOf(draws[t].first, draws[t].second) in used;
      }
    }
  }

  /** Adding a child whose couple is not yet used keeps the couples distinct
      and the used set in step. */
  lemma FreshCouple(used0: set<Couple>, children: seq<Child>, used: set<Couple>, ch: Child)
    requires used == used0 + CouplesOf(children)
    requires DistinctCouples(children)
    requires forall k :: 0 <= k < |children| ==> CoupleOfChild(children[k]) !in used0
    requires CoupleOfChild(ch) !in used
    ensures used + {CoupleOfChild(ch)} == used0 + CouplesOf(children + [ch])
    ensures DistinctCouples(children + [ch])
    ensures forall k :: 0 <= k < |children + [ch]| ==> CoupleOfChild((children + [ch])[k]) !in used0
  {
    AppendFreshCouple(children, ch);
    CouplesOfAppend(children, ch);
  }

  /** A phase 2 draw whose couple was taken is consumed without a child. */
  lemma RestReject(parents: seq<Genome>, c: Corpora, rate: real, draws: seq<PairDraw>, used0: set<Couple>,
                   children: seq<Child>, used: set<Couple>, consumed: nat)
    requires c.Valid() && ParentsConform(parents, c) && PairDrawsValid(draws, |parents|, c, rate)
    requires RestPhase(parents, c, rate, draws, used0, children, used, consumed)
    requires consumed < |draws| && CoupleOf(draws[consumed].first, draws[consumed].second) in used
    ensures RestPhase(parents, c, rate, draws, used0, children, used, consumed + 1)
  {
    forall t | 0 <= t < consumed + 1 ensures CoupleOf(draws[t].first, draws[t].second) in used {
      if t < consumed {
        assert CoupleOf(draws[t].first, draws[t].second) in used;
      }
    }
  }

  /** One iteration of phase 2. */
  method RestPhaseStep(parents: seq<Genome>, c: Corpora, rate: real, draws: seq<PairDraw>, used0: set<Couple>,
                       target: nat, children: seq<Child>, used: set<Couple>, consumed: nat)
    returns (children': seq<Child>, used': set<Couple>)
    requires c.Valid() && ParentsConform(parents, c) && PairDrawsValid(draws, |parents|, c, rate)
    requires RestLoop(parents, c, rate, draws, used0, target, children, used, consumed)
    requires |children| < target && consumed < |draws|
    ensures RestLoop(parents, c, rate, draws, used0, target, children', used', consumed + 1)
    ensures |children| <= |children'| <= |children| + 1
    ensures children'[..|children|] == children
    ensures |children'| > |children| ==> children'[|children|].draw == consumed
  {
    var d := draws[consumed];
    var couple := CoupleOf(d.first, d.second);
    if couple !in used {
      var ch := Child(d.first, d.second, consumed, Cross(parents[d.first], parents[d.second], c, rate, d.cross));
      RestAccept(parents, c, rate, draws, used0, children, used, consumed, ch);
      AppendLaterDraw(children, ch);
      AppendFirstPair(children, ch, draws, used, consumed);
      children', used' := children + [ch], used + {couple};
      assert children'[..|children|] == children;
    } else {
      RestReject(parents, c, rate, draws, used0, children, used, consumed);
      children', used' := children, used;
    }
  }

  /** Phase 2 (`while len(nova_populacao) < tam_populacao`), with `used0` the
      pairs phase 1 took and `target` the places left. Nothing happens when
      fewer than two individuals besides the best exist. */
  method PairRest(parents: seq<Genome>, c: Corpora, rate: real, target: nat, used0: set<Couple>, draws: seq<PairDraw>)
    returns (children: seq<Child>, used: set<Couple>, consumed: nat)
    requires c.Valid() && ParentsConform(parents, c)
    requires PairDrawsValid(draws, |parents|, c, rate)
    ensures RestOutcome(parents, c, rate, draws, used0, target, children, consumed)
    ensures used == used0 + CouplesOf(children)
  {
    children, used, consumed := [], used0, 0;
    if |parents| - 1 < 2 {
      return;
    }
    while |children| < target && consumed < |draws|
      invariant RestLoop(parents, c, rate, draws, used0, target, children, used, consumed)
    {
      children, used := RestPhaseStep(parents, c, rate, draws, used0, target, children, used, consumed);
      consumed := consumed + 1;
    }
    RestFinish(parents, c, rate, draws, used0, target, children, used, consumed);
  }

  lemma RestFinish(parents: seq<Genome>, c: Corpora, rate: real, draws: seq<PairDraw>, used0: set<Couple>,
                   target: nat, children: seq<Child>, used: set<Couple>, consumed: nat)
    requires c.Valid() && ParentsConform(parents, c) && PairDrawsValid(draws, |parents|, c, rate)
    requires |parents| >= 3
    requires RestLoop(parents, c, rate, draws, used0, target, children, used, consumed)
    requires |children| < target ==> consumed == |draws|
    ensures RestOutcome(parents, c, rate, draws, used0, target, children, consumed)
  {
  }

  /** What phase 2 makes of its draws, as `TopOutcome` for phase 1, except
      that a couple phase 1 used (`used0`) is also discarded, and the phase
      does nothing when fewer than two individuals besides the best exist. */
  ghost predicate RestOutcome(parents: seq<Genome>, c: Corpora, rate: real, draws: seq<PairDraw>, used0: set<Couple>,
                              target: nat, children: seq<Child>, consumed: nat)
    requires c.Valid() && ParentsConform(parents, c) && PairDrawsValid(draws, |parents|, c, rate)
  {
    && consumed <= |draws| && |children| <= target
    && (|parents| < 3 ==> children == [] && consumed == 0)
    && DistinctCouples(children)
    && (forall k :: 0 <= k < |children| ==> CoupleOfChild(children[k]) !in used0)
    && AllFromPairDraws(children, parents, c, rate, draws, consumed)
    && DrawOrdered(children)
    && FirstPairDraws(children, draws)
    && (forall t :: 0 <= t < consumed ==> CoupleOf(draws[t].first, draws[t].second) in used0 + CouplesOf(children))
    && (|parents| >= 3 && |children| < target ==> consumed == |draws|)
    && (|children| == target && consumed > 0 ==> |children| > 0 && children[|children| - 1].draw == consumed - 1)
  }

  lemma RankedConform(evals: seq<Evaluation>, c: Corpora)
    requires forall i :: 0 <= i < |evals| ==> Conforms(evals[i].genome, c)
    ensures ParentsConform(Parents(Ranked(evals)), c)
  {
    var r := Ranked(evals);
    forall i | 0 <= i < |r| ensures Conforms(r[i].genome, c) {
      assert r[i] in multiset(evals);
      var j :| 0 <= j < |evals| && evals[j] == r[i];
    }
  }

  /** Joining the two phases' children: couples stay distinct, and exactly
      the phase 1 children have the best individual as a parent. */
  lemma JoinPhases(parents: seq<Genome>, c: Corpora, rate: real, phase1: seq<PartnerDraw>, phase2: seq<PairDraw>,
                   elite: seq<Child>, rest: seq<Child>, n1: nat, n2: nat)
    requires c.Valid() && ParentsConform(parents, c)
    requires PartnerDrawsValid(phase1, |parents|, c, rate) && PairDrawsValid(phase2, |parents|, c, rate)
    requires |elite| <= EliteChildren && (rest == [] || |elite| == EliteChildren)
    requires DistinctCouples(elite) && DistinctCouples(rest)
    requires forall k :: 0 <= k < |rest| ==> CoupleOfChild(rest[k]) !in CouplesOf(elite)
    requires AllFromPartnerDraws(elite, parents, c, rate, phase1, n1)
    requires AllFromPairDraws(rest, parents, c, rate, phase2, n2)
    ensures DistinctCouples(elite + rest)
    ensures forall k :: 0 <= k < |elite + rest| ==> ((elite + rest)[k].first == 0 <==> k < EliteChildren)
    ensures forall k :: 0 <= k < |elite + rest| && (elite + rest)[k].first == 0 ==>
      FromPartnerDraw((elite + rest)[k], parents, c, rate, phase1)
    ensures forall k :: 0 <= k < |elite + rest| && (elite + rest)[k].first != 0 ==>
      FromPairDraw((elite + rest)[k], parents, c, rate, phase2)
  {
    var all := elite + rest;
    forall k, l | 0 <= k < l < |all|
      ensures CoupleOfChild(all[k]) != CoupleOfChild(all[l])
    {
      if k < |elite| <= l {
        assert CoupleOfChild(elite[k]) in CouplesOf(elite);
        assert all[l] == rest[l - |elite|];
      } else if |elite| <= k {
        assert all[k] == rest[k - |elite|] && all[l] == rest[l - |elite|];
      }
    }
    forall k | 0 <= k < |all|
      ensures (all[k].first == 0 <==> k < EliteChildren)
      ensures all[k].first == 0 ==> FromPartnerDraw(all[k], parents, c, rate, phase1)
      ensures all[k].first != 0 ==> FromPairDraw(all[k], parents, c, rate, phase2)
    {
      if k >= |elite| {
        assert all[k] == rest[k - |elite|];
        assert FromPairDraw(rest[k - |elite|], parents, c, rate, phase2);
      }
    }
  }

  /** What the two phases make of their draws together: the first
      EliteChildren children (or fewer) are phase 1's outcome over `phase1`;
      phase 2 runs only on a complete phase 1, and its outcome over `phase2`,
      avoiding the couples phase 1 took, fills the remaining places. */
  ghost predicate Offspring(parents: seq<Genome>, c: Corpora, rate: real, phase1: seq<PartnerDraw>,
                            phase2: seq<PairDraw>, children: seq<Child>, consumed1: nat, consumed2: nat)
    requires c.Valid() && ParentsConform(parents, c)
    requires PartnerDrawsValid(phase1, |parents|, c, rate) && PairDrawsValid(phase2, |parents|, c, rate)
  {
    var m := if |children| < EliteChildren then |children| else EliteChildren;
    && TopOutcome(parents, c, rate, phase1, EliteChildren, children[..m], consumed1)
    && (m < EliteChildren ==> consumed2 == 0)
    && (m == EliteChildren ==>
          RestOutcome(parents, c, rate, phase2, CouplesOf(children[..m]), PopulationSize - EliteChildren,
                      children[m..], consumed2))
  }

  lemma JoinOutcomes(parents: seq<Genome>, c: Corpora, rate: real, phase1: seq<PartnerDraw>, phase2: seq<PairDraw>,
                     elite: seq<Child>, rest: seq<Child>, n1: nat, n2: nat)
    requires c.Valid() && ParentsConform(parents, c)
    requires PartnerDrawsValid(phase1, |parents|, c, rate) && PairDrawsValid(phase2, |parents|, c, rate)
    requires TopOutcome(parents, c, rate, phase1, EliteChildren, elite, n1)
    requires |elite| < EliteChildren ==> rest == [] && n2 == 0
    requires |elite| == EliteChildren ==>
      RestOutcome(parents, c, rate, phase2, CouplesOf(elite), PopulationSize - EliteChildren, rest, n2)
    ensures Offspring(parents, c, rate, phase1, phase2, elite + rest, n1, n2)
  {
    var all := elite + rest;
    assert all[..|elite|] == elite;
    if |elite| == EliteChildren {
      assert all[|elite|..] == rest;
    } else {
      assert all == elite;
    }
  }

  /** Every consumed draw's couple ends up among the children's, and a
      phase stops short of its draws only by completing its share. */
  lemma OffspringConsumed(parents: seq<Genome>, c: Corpora, rate: real, phase1: seq<PartnerDraw>,
                          phase2: seq<PairDraw>, children: seq<Child>, n1: nat, n2: nat)
    requires c.Valid() && ParentsConform(parents, c)
    requires PartnerDrawsValid(phase1, |parents|, c, rate) && PairDrawsValid(phase2, |parents|, c, rate)
    requires Offspring(parents, c, rate, phase1, phase2, children, n1, n2)
    ensures n1 <= |phase1| && n2 <= |phase2| && |children| <= PopulationSize
    ensures forall t :: 0 <= t < n1 ==> Couple(0, phase1[t].partner) in CouplesOf(children)
    ensures forall t :: 0 <= t < n2 ==> CoupleOf(phase2[t].first, phase2[t].second) in CouplesOf(children)
    ensures n1 < |phase1| ==> |children| >= EliteChildren
    ensures |children| < EliteChildren ==> n1 == |phase1| && n2 == 0
    ensures EliteChildren <= |children| < PopulationSize ==> n2 == |phase2|
  {
    var m := if |children| < EliteChildren then |children| else EliteChildren;
    CouplesOfSplit(children, m);
  }

  lemma CouplesOfSplit(children: seq<Child>, m: nat)
    requires m <= |children|
    ensures CouplesOf(children[..m]) <= CouplesOf(children)
    ensures CouplesOf(children[m..]) <= CouplesOf(children)
  {
    forall x | x in CouplesOf(children[..m]) ensures x in CouplesOf(children) {
      var k :| 0 <= k < m && x == CoupleOfChild(children[..m][k]);
      assert children[..m][k] == children[k];
    }
    forall x | x in CouplesOf(children[m..]) ensures x in CouplesOf(children) {
      var k :| 0 <= k < |children| - m && x == CoupleOfChild(children[m..][k]);
      assert children[m..][k] == children[m + k];
    }
  }

  /** The ranked head is the earliest top-scoring evaluation. */
  lemma RankedHead(evals: seq<Evaluation>)
    requires |evals| > 0
    ensures Ranked(evals)[0] == evals[FirstBest(evals, EvalScore)]
    ensures forall i :: 0 <= i < |evals| ==> evals[i].score <= Ranked(evals)[0].score
  {
    SortHeadIsFirstBest(evals, EvalScore);
    var fb := FirstBest(evals, EvalScore);
    assert forall i :: 0 <= i < |evals| ==> EvalScore(evals[i]) <= EvalScore(evals[fb]);
  }

  /** `gerar_nova_populacao(avaliacoes)` with `melhores` passed in and returned.
      The first EliteChildren children, and only they, have the best individual
      as a parent; no unordered pair parents twice; within each phase the
      children come in the order of their draws. The population never exceeds
      PopulationSize and falls short of it only when a phase ran out of draws,
      where the source would keep sampling (and, with fewer than
      EliteChildren + 1 individuals, never finish phase 1). Phase 2 runs only
      once phase 1 is complete. */
  method NextGeneration(evals: seq<Evaluation>, best: seq<Evaluation>, c: Corpora, rate: real,
                        phase1: seq<PartnerDraw>, phase2: seq<PairDraw>)
    returns (population: seq<Genome>, children: seq<Child>, best': seq<Evaluation>,
             consumed1: nat, consumed2: nat)
    requires c.Valid() && |evals| >= 2
    requires forall i :: 0 <= i < |evals| ==> Conforms(evals[i].genome, c)
    requires PartnerDrawsValid(phase1, |evals|, c, rate)
    requires PairDrawsValid(phase2, |evals|, c, rate)
    ensures |best'| == |best| + 1 && best'[..|best|] == best
    ensures best'[|best|] in evals
    ensures best' == best + [evals[FirstBest(evals, EvalScore)]]
    ensures forall i :: 0 <= i < |evals| ==> evals[i].score <= best'[|best|].score
    ensures |population| == |children| <= PopulationSize
    ensures consumed1 <= |phase1| && consumed2 <= |phase2|
    ensures |children| < PopulationSize ==> consumed1 == |phase1| || consumed2 == |phase2|
    ensures forall t :: 0 <= t < consumed1 ==> Couple(0, phase1[t].partner) in CouplesOf(children)
    ensures forall t :: 0 <= t < consumed2 ==> CoupleOf(phase2[t].first, phase2[t].second) in CouplesOf(children)
    ensures consumed1 < |phase1| ==> |children| >= EliteChildren
    ensures |children| < EliteChildren ==> consumed1 == |phase1| && consumed2 == 0
    ensures EliteChildren <= |children| < PopulationSize ==> consumed2 == |phase2|
    ensures forall k, l :: 0 <= k < l < |children| && (l < EliteChildren || EliteChildren <= k) ==>
      children[k].draw < children[l].draw
    ensures forall k :: 0 <= k < |children| ==> population[k] == children[k].genome
    ensures DistinctCouples(children)
    ensures forall k :: 0 <= k < |children| ==> (children[k].first == 0 <==> k < EliteChildren)
    ensures ParentsConform(Parents(Ranked(evals)), c)
    ensures Offspring(Parents(Ranked(evals)), c, rate, phase1, phase2, children, consumed1, consumed2)
    ensures forall k :: 0 <= k < |children| && children[k].first == 0 ==>
      FromPartnerDraw(children[k], Parents(Ranked(evals)), c, rate, phase1)
    ensures forall k :: 0 <= k < |children| && children[k].first != 0 ==>
      FromPairDraw(children[k], Parents(Ranked(evals)), c, rate, phase2)
  {
    var ranked := Ranked(evals);
    RankedHead(evals);
    best' := best + [ranked[0]];
    var parents := Parents(ranked);
    RankedConform(evals, c);
    children, consumed1, consumed2 := Breed(parents, c, rate, phase1, phase2);
    population := seq(|children|, k requires 0 <= k < |children| => children[k].genome);
  }

  /** The two mating phases over the ranked parents `parents`. */
  method Breed(parents: seq<Genome>, c: Corpora, rate: real, phase1: seq<PartnerDraw>, phase2: seq<PairDraw>)
    returns (children: seq<Child>, consumed1: nat, consumed2: nat)
    requires c.Valid() && |parents| >= 1 && ParentsConform(parents, c)
    requires PartnerDrawsValid(phase1, |parents|, c, rate) && PairDrawsValid(phase2, |parents|, c, rate)
    ensures Offspring(parents, c, rate, phase1, phase2, children, consumed1, consumed2)
    ensures consumed1 <= |phase1| && consumed2 <= |phase2| && |children| <= PopulationSize
    ensures forall t :: 0 <= t < consumed1 ==> Couple(0, phase1[t].partner) in CouplesOf(children)
    ensures forall t :: 0 <= t < consumed2 ==> CoupleOf(phase2[t].first, phase2[t].second) in CouplesOf(children)
    ensures consumed1 < |phase1| ==> |children| >= EliteChildren
    ensures |children| < EliteChildren ==> consumed1 == |phase1| && consumed2 == 0
    ensures EliteChildren <= |children| < PopulationSize ==> consumed2 == |phase2|
    ensures forall k, l :: 0 <= k < l < |children| && (l < EliteChildren || EliteChildren <= k) ==>
      children[k].draw < children[l].draw
    ensures DistinctCouples(children)
    ensures forall k :: 0 <= k < |children| ==> (children[k].first == 0 <==> k < EliteChildren)
    ensures forall k :: 0 <= k < |children| && children[k].first == 0 ==>
      FromPartnerDraw(children[k], parents, c, rate, phase1)
    ensures forall k :: 0 <= k < |children| && children[k].first != 0 ==>
      FromPairDraw(children[k], parents, c, rate, phase2)
  {
    var elite, used, n1 := PairWithTop(parents, c, rate, EliteChildren, phase1);
    var rest: seq<Child> := [];
    var n2 := 0;
    if |elite| == EliteChildren {
      var used2;
      rest, used2, n2 := PairRest(parents, c, rate, PopulationSize - EliteChildren, used, phase2);
    }
    JoinPhases(parents, c, rate, phase1, phase2, elite, rest, n1, n2);
    JoinOutcomes(parents, c, rate, phase1, phase2, elite, rest, n1, n2);
    children := elite + rest;
    consumed1, consumed2 := n1, n2;
    OffspringConsumed(parents, c, rate, phase1, phase2, children, n1, n2);
    JoinDrawOrder(elite, rest);
  }

  lemma JoinDrawOrder(elite: seq<Child>, rest: seq<Child>)
    requires DrawOrdered(elite) && DrawOrdered(rest)
    requires |elite| <= EliteChildren && (rest == [] || |elite| == EliteChildren)
    ensures forall k, l :: 0 <= k < l < |elite + rest| && (l < EliteChildren || EliteChildren <= k) ==>
      (elite + rest)[k].draw < (elite + rest)[l].draw
  {
    var children := elite + rest;
    forall k, l | 0 <= k < l < |children| && (l < EliteChildren || EliteChildren <= k)
      ensures children[k].draw < children[l].draw
    {
      if l < |elite| {
        assert children[k] == elite[k] && children[l] == elite[l];
      } else {
        assert children[k] == rest[k - |elite|] && children[l] == rest[l - |elite|];
      }
    }
  }
}

=== FILE: mutation.dfy ===
/** The mutation operator `mutate` (evolutivo.py): with probability equal to
    the current rate, copy the vector and perturb between 1 and
    max(1, len/20) randomly picked coordinates (repeats allowed), applying at
    each a non-empty subset of the operators substitute, multiply and add,
    in that fixed order. Every random draw is an explicit field below. */
module Mutation {
  import opened Config

  datatype Op = Substitute | Multiply | Add

  /** The draws consumed at one picked coordinate. */
  datatype SiteDraws = SiteDraws(
    position: int,        // random.randint(0, len - 1)
    substituteDraw: real, // random.random(), compared with rate / 3
    multiplyDraw: real,   // random.random(), compared with rate / 3
    addDraw: real,        // random.random(), compared with rate / 3
    fallback: Op,         // random.choice(...) when no operator fired
    value: real,          // random.uniform(min, max)
    factor: real,         // random.uniform(0.95, 1.05)
    shift: real)          // random.uniform(-0.05 std, 0.05 std)

  /** The gate draw and one record per picked coordinate; the number of
      records is the mutation count `num_mutacoes`. */
  datatype MutationDraws = MutationDraws(gate: real, sites: seq<SiteDraws>)

  /** Upper bound of the mutation count, `max(1, len // 20)`. */
  function MaxMutations(n: nat): (k: nat)
    ensures k >= 1 && k >= n / 20
    ensures k == 1 || k == n / 20
  {
    if n / 20 >= 1 then n / 20 else 1
  }

  /** The ranges the random source guarantees for one site's draws. */
  predicate SiteInRange(d: SiteDraws, n: nat, st: Stats)
  {
    0 <= d.position < n && ValuesInRange(d, st)
  }

  predicate ValuesInRange(d: SiteDraws, st: Stats)
  {
    && st.lo <= d.value <= st.hi
    && 0.95 <= d.factor <= 1.05
    && -(st.std * 0.05) <= d.shift <= st.std * 0.05
  }

  /** Draws that `random` could have produced for a vector of length `n`:
      when the gate fires, between 1 and MaxMutations(n) sites, each in range. */
  predicate WellFormed(d: MutationDraws, n: nat, st: Stats, rate: real)
  {
    d.gate < rate ==>
      && 1 <= |d.sites| <= MaxMutations(n)
      && forall t :: 0 <= t < |d.sites| ==> SiteInRange(d.sites[t], n, st)
  }

  function Rank(op: Op): nat
  {
    match op
    case Substitute => 0
    case Multiply => 1
    case Add => 2
  }

  /** The operators applied at one site: those whose draw is below rate / 3,
      or the fallback alone when none is. */
  function OpsFired(d: SiteDraws, rate: real): (ops: seq<Op>)
    ensures 1 <= |ops| <= 3
    ensures forall i, j :: 0 <= i < j < |ops| ==> Rank(ops[i]) < Rank(ops[j])
    ensures Substitute in ops <==>
      (d.substituteDraw < rate / 3.0 || (NoneFired(d, rate) && d.fallback == Substitute))
    ensures Multiply in ops <==>
      (d.multiplyDraw < rate / 3.0 || (NoneFired(d, rate) && d.fallback == Multiply))
    ensures Add in ops <==>
      (d.addDraw < rate / 3.0 || (NoneFired(d, rate) && d.fallback == Add))
  {
    var fired :=
      (if d.substituteDraw < rate / 3.0 then [Substitute] else [])
      + (if d.multiplyDraw < rate / 3.0 then [Multiply] else [])
      + (if d.addDraw < rate / 3.0 then [Add] else []);
    if fired == [] then [d.fallback] else fired
  }

  predicate NoneFired(d: SiteDraws, rate: real)
  {
    && d.substituteDraw >= rate / 3.0
    && d.multiplyDraw >= rate / 3.0
    && d.addDraw >= rate / 3.0
  }

  function ApplyOp(x: real, op: Op, d: SiteDraws): real
  {
    match op
    case Substitute => d.value
    case Multiply => x * d.factor
    case Add => x + d.shift
  }

  /** Applies the operators left to right to one coordinate value. */
  function ApplyOps(x: real, ops: seq<Op>, d: SiteDraws): real
    decreases |ops|
  {
    if ops == [] then x else ApplyOps(ApplyOp(x, ops[0], d), ops[1..], d)
  }

  /** The new value of the coordinate a site picks. */
  function SiteValue(x: real, d: SiteDraws, rate: real): real
  {
    ApplyOps(x, OpsFired(d, rate), d)
  }

  /** Applies the sites in order; a position picked twice is perturbed twice. */
  function ApplySites(v: seq<real>, sites: seq<SiteDraws>, rate: real): (r: seq<real>)
    requires forall t :: 0 <= t < |sites| ==> 0 <= sites[t].position < |v|
    ensures |r| == |v|
    decreases |sites|
  {
    if sites == [] then v
    else
      var p := sites[0].position;
      ApplySites(v[p := SiteValue(v[p], sites[0], rate)], sites[1..], rate)
  }

  /** The positions a draw sequence picks. */
  function Picked(sites: seq<SiteDraws>): set<int>
  {
    set t | 0 <= t < |sites| :: sites[t].position
  }

  /** The value one coordinate ends with, following only the sites that pick
      it: a reference definition that never looks at another coordinate. */
  function CoordAfter(x: real, i: int, sites: seq<SiteDraws>, rate: real): real
    decreases |sites|
  {
    if sites == [] then x
    else if sites[0].position == i then CoordAfter(SiteValue(x, sites[0], rate), i, sites[1..], rate)
    else CoordAfter(x, i, sites[1..], rate)
  }

  /** `mutate(embedding, embedding_type)` with the global rate as a parameter. */
  function Mutate(v: seq<real>, m: Modality, rate: real, d: MutationDraws): (r: seq<real>)
    requires WellFormed(d, |v|, StatsOf(m), rate)
    ensures |r| == |v|
    ensures d.gate >= rate ==> r == v
    ensures forall i :: 0 <= i < |v| && r[i] != v[i] ==> d.gate < rate && i in Picked(d.sites)
    ensures d.gate < rate ==> |Picked(d.sites)| <= MaxMutations(|v|)
  {
    if d.gate < rate then
      MutationIsLocal(v, d.sites, rate);
      PickedBound(d.sites);
      ApplySites(v, d.sites, rate)
    else v
  }

  /** Mutation is purely per-coordinate: each coordinate of the result is the
      reference CoordAfter of that coordinate alone. */
  lemma {:induction false} ApplySitesPointwise(v: seq<real>, sites: seq<SiteDraws>, rate: real, i: int)
    requires forall t :: 0 <= t < |sites| ==> 0 <= sites[t].position < |v|
    requires 0 <= i < |v|
    ensures ApplySites(v, sites, rate)[i] == CoordAfter(v[i], i, sites, rate)
    decreases |sites|
  {
    if sites != [] {
      var p := sites[0].position;
      var w := v[p := SiteValue(v[p], sites[0], rate)];
      ApplySitesPointwise(w, sites[1..], rate, i);
    }
  }

  lemma {:induction false} CoordAfterUnpicked(x: real, i: int, sites: seq<SiteDraws>, rate: real)
    requires i !in Picked(sites)
    ensures CoordAfter(x, i, sites, rate) == x
  {
    if sites != [] {
      assert Picked(sites[1..]) <= Picked(sites) by {
        forall p | p in Picked(sites[1..]) ensures p in Picked(sites) {
          var t :| 0 <= t < |sites[1..]| && sites[1..][t].position == p;
          assert sites[t + 1].position == p;
        }
      }
      assert sites[0].position in Picked(sites);
      CoordAfterUnpicked(x, i, sites[1..], rate);
    }
  }

  /** Coordinates no site picks keep their value. */
  lemma MutationIsLocal(v: seq<real>, sites: seq<SiteDraws>, rate: real)
    requires forall t :: 0 <= t < |sites| ==> 0 <= sites[t].position < |v|
    ensures forall i :: 0 <= i < |v| && i !in Picked(sites) ==> ApplySites(v, sites, rate)[i] == v[i]
  {
    forall i | 0 <= i < |v| && i !in Picked(sites)
      ensures ApplySites(v, sites, rate)[i] == v[i]
    {
      ApplySitesPointwise(v, sites, rate, i);
      CoordAfterUnpicked(v[i], i, sites, rate);
    }
  }

  /** k draws pick at most k distinct positions. */
  lemma {:induction false} PickedBound(sites: seq<SiteDraws>)
    ensures |Picked(sites)| <= |sites|
  {
    if sites != [] {
      PickedBound(sites[1..]);
      assert Picked(sites) == Picked(sites[1..]) + {sites[0].position} by {
        forall p | p in Picked(sites) ensures p in Picked(sites[1..]) + {sites[0].position} {
          var t :| 0 <= t < |sites| && sites[t].position == p;
          if t > 0 {
            assert sites[1..][t - 1].position == p;
          }
        }
        forall p | p in Picked(sites[1..]) ensures p in Picked(sites) {
          var t :| 0 <= t < |sites[1..]| && sites[1..][t].position == p;
          assert sites[t + 1].position == p;
        }
      }
    }
  }

  /** Once substitute fires, a site's outcome no longer depends on the
      coordinate's previous value. */
  lemma SubstituteForgets(x: real, y: real, d: SiteDraws, rate: real)
    requires Substitute in OpsFired(d, rate)
    ensures SiteValue(x, d, rate) == SiteValue(y, d, rate)
  {
    var ops := OpsFired(d, rate);
    assert ops[0] == Substitute;
  }

  /** A substitute-only site sets the coordinate inside [min, max]; with
      multiply and add following it, the value stays within those bounds
      stretched by the factor and the shift. */
  lemma SubstitutedValueBounded(x: real, d: SiteDraws, rate: real, m: Modality)
    requires ValuesInRange(d, StatsOf(m))
    requires Substitute in OpsFired(d, rate)
    ensures OpsFired(d, rate) == [Substitute] ==>
      StatsOf(m).lo <= SiteValue(x, d, rate) <= StatsOf(m).hi
    ensures 1.05 * StatsOf(m).lo - 0.05 * StatsOf(m).std
      <= SiteValue(x, d, rate)
      <= 1.05 * StatsOf(m).hi + 0.05 * StatsOf(m).std
  {
    var st := StatsOf(m);
    ProductBounds(d.value, d.factor, st.lo, st.hi);
    SubstituteThen(x, d, rate);
  }

  /** The value a site leaves when substitute fires: the drawn value, then
      scaled and shifted by whichever of the other two operators fire. */
  lemma SubstituteThen(x: real, d: SiteDraws, rate: real)
    requires Substitute in OpsFired(d, rate)
    ensures OpsFired(d, rate) == [Substitute] ==> SiteValue(x, d, rate) == d.value
    ensures SiteValue(x, d, rate) ==
      (if Multiply in OpsFired(d, rate) then d.value * d.factor else d.value)
      + (if Add in OpsFired(d, rate) then d.shift else 0.0)
  {
    var third := rate / 3.0;
    var multiply := d.substituteDraw < third && d.multiplyDraw < third;
    var add := d.substituteDraw < third && d.addDraw < third;
    var ops := [Substitute] + (if multiply then [Multiply] else []) + (if add then [Add] else []);
    assert OpsFired(d, rate) == ops;
    assert Multiply in ops <==> multiply;
    assert Add in ops <==> add;
    AfterSubstitute(x, d, multiply, add);
  }

  /** Evaluation of the operator lists that start with substitute. */
  lemma AfterSubstitute(x: real, d: SiteDraws, multiply: bool, add: bool)
    ensures
      ApplyOps(x, [Substitute] + (if multiply then [Multiply] else []) + (if add then [Add] else []), d)
      == (if multiply then d.value * d.factor else d.value) + (if add then d.shift else 0.0)
  {
    var ops := [Substitute] + (if multiply then [Multiply] else []) + (if add then [Add] else []);
    var rest := (if multiply then [Multiply] else []) + (if add then [Add] else []);
    assert ops[1..] == rest;
    var y := if multiply then d.value * d.factor else d.value;
    if multiply {
      assert rest[1..] == (if add then [Add] else []);
    }
    assert ApplyOps(d.value, rest, d) == ApplyOps(y, if add then [Add] else [], d);
    if add {
      assert [Add][1..] == [];
    }
  }

  lemma ProductBounds(x: real, f: real, lo: real, hi: real)
    requires lo < 0.0 < hi
    requires lo <= x <= hi
    requires 0.95 <= f <= 1.05
    ensures 1.05 * lo <= x * f <= 1.05 * hi
  {
    assert x * f == 1.05 * x - x * (1.05 - f);
    if x >= 0.0 {
      NonNegativeProduct(x, 1.05 - f);
      NonNegativeProduct(x, f);
    } else {
      NonNegativeProduct(-x, 1.05 - f);
      NonNegativeProduct(-x, f);
    }
  }

  lemma NonNegativeProduct(a: real, b: real)
    requires a >= 0.0 && b >= 0.0
    ensures a * b >= 0.0
  {
  }

  /** A mutation that fires need not change the vector: one multiply by a
      factor of exactly 1.0 leaves it as it was, even at rate 1.0. */
  lemma FiringMayLeaveVectorUnchanged()
    ensures
      var site := SiteDraws(0, 0.9, 0.0, 0.9, Multiply, 0.0, 1.0, 0.0);
      var d := MutationDraws(0.0, [site]);
      WellFormed(d, 1, StatsOf(Image), 1.0)
      && d.gate < 1.0
      && Mutate([0.5], Image, 1.0, d) == [0.5]
  {
    var site := SiteDraws(0, 0.9, 0.0, 0.9, Multiply, 0.0, 1.0, 0.0);
    assert OpsFired(site, 1.0) == [Multiply];
  }
}

=== FILE: sorting.dfy ===
/** Stable descending sort by a real-valued key, the behaviour of Python's
    `list.sort(key=..., reverse=True)`: larger keys first, and elements with
    equal keys keep their original relative order. */
module Sorting {

  ghost predicate SortedDesc<T>(s: seq<T>, key: T -> real)
  {
    forall i, j :: 0 <= i < j < |s| ==> key(s[i]) >= key(s[j])
  }

  /** Places `x` in front of the first element whose key does not exceed its
      own, so that `x` precedes the equal-keyed elements that came after it. */
  function Insert<T>(x: T, s: seq<T>, key: T -> real): (r: seq<T>)
    requires SortedDesc(s, key)
    ensures SortedDesc(r, key)
    ensures multiset(r) == multiset(s) + multiset{x}
    ensures |r| == |s| + 1
  {
    if s == [] || key(s[0]) <= key(x) then [x] + s
    else
      assert s == [s[0]] + s[1..];
      var tail := Insert(x, s[1..], key);
      HeadBoundsRest(s[0], x, s[1..], tail, key);
      ConsSorted(s[0], tail, key);
      [s[0]] + tail
  }

  lemma ConsSorted<T>(h: T, s: seq<T>, key: T -> real)
    requires SortedDesc(s, key)
    requires forall j :: 0 <= j < |s| ==> key(s[j]) <= key(h)
    ensures SortedDesc([h] + s, key)
  {
    var r := [h] + s;
    forall i, j | 0 <= i < j < |r| ensures key(r[i]) >= key(r[j]) {
      assert r[j] == s[j - 1];
      if i > 0 {
        assert r[i] == s[i - 1];
      }
    }
  }

  /** An element whose key bounds a sorted sequence and a new element also
      bounds the result of inserting that element. */
  lemma HeadBoundsRest<T>(h: T, x: T, s: seq<T>, r: seq<T>, key: T -> real)
    requires forall j :: 0 <= j < |s| ==> key(s[j]) <= key(h)
    requires key(x) <= key(h)
    requires multiset(r) == multiset(s) + multiset{x}
    ensures forall j :: 0 <= j < |r| ==> key(r[j]) <= key(h)
  {
    forall j | 0 <= j < |r|
      ensures key(r[j]) <= key(h)
    {
      assert r[j] in multiset(r);
      if r[j] != x {
        assert r[j] in multiset(s);
        var m :| 0 <= m < |s| && s[m] == r[j];
      }
    }
  }

  function SortDesc<T>(s: seq<T>, key: T -> real): (r: seq<T>)
    ensures SortedDesc(r, key)
    ensures multiset(r) == multiset(s)
    ensures |r| == |s|
  {
    if s == [] then []
    else
      assert s == [s[0]] + s[1..];
      Insert(s[0], SortDesc(s[1..], key), key)
  }

  /** The elements whose key is `v`, in their order of appearance. */
  function KeyRun<T>(s: seq<T>, key: T -> real, v: real): (r: seq<T>)
    ensures |r| <= |s|
    ensures forall x :: x in r ==> x in s && key(x) == v
    decreases |s|
  {
    if s == [] then []
    else (if key(s[0]) == v then [s[0]] else []) + KeyRun(s[1..], key, v)
  }

  lemma KeyRunCons<T>(a: T, s: seq<T>, key: T -> real, v: real)
    ensures KeyRun([a] + s, key, v) == (if key(a) == v then [a] else []) + KeyRun(s, key, v)
  {
    assert ([a] + s)[1..] == s;
  }

  /** Inserting `x` puts it in front of every element with the same key. */
  lemma {:induction false} InsertKeyRun<T>(x: T, s: seq<T>, key: T -> real, v: real)
    requires SortedDesc(s, key)
    ensures KeyRun(Insert(x, s, key), key, v) == KeyRun([x] + s, key, v)
    decreases |s|
  {
    if s != [] && key(s[0]) > key(x) {
      var h, t := s[0], s[1..];
      assert s == [h] + t;
      var tail := Insert(x, t, key);
      assert Insert(x, s, key) == [h] + tail;
      InsertKeyRun(x, t, key, v);
      var hs: seq<T> := if key(h) == v then [h] else [];
      var xs: seq<T> := if key(x) == v then [x] else [];
      var rest := KeyRun(t, key, v);
      if key(x) == v {
        assert hs == [] && [] + rest == rest;
      } else {
        assert xs == [] && [] + rest == rest;
      }
      calc {
        KeyRun([h] + tail, key, v);
        { KeyRunCons(h, tail, key, v); }
        hs + KeyRun([x] + t, key, v);
        { KeyRunCons(x, t, key, v); }
        hs + (xs + rest);
        xs + (hs + rest);
        { KeyRunCons(h, t, key, v); }
        xs + KeyRun(s, key, v);
        { KeyRunCons(x, s, key, v); }
        KeyRun([x] + s, key, v);
      }
    }
  }

  /** The sort is stable: the elements sharing any one key come out in the
      order they went in. */
  lemma {:induction false} SortDescIsStable<T>(s: seq<T>, key: T -> real)
    ensures forall v :: KeyRun(SortDesc(s, key), key, v) == KeyRun(s, key, v)
    decreases |s|
  {
    if s != [] {
      SortDescIsStable(s[1..], key);
      forall v ensures KeyRun(SortDesc(s, key), key, v) == KeyRun(s, key, v) {
        InsertKeyRun(s[0], SortDesc(s[1..], key), key, v);
        KeyRunCons(s[0], SortDesc(s[1..], key), key, v);
        KeyRunCons(s[0], s[1..], key, v);
        assert s == [s[0]] + s[1..];
      }
    }
  }

  /** Index of the earliest element carrying the largest key. */
  function FirstBest<T>(s: seq<T>, key: T -> real): (i: nat)
    requires |s| > 0
    ensures i < |s|
    ensures forall j :: 0 <= j < |s| ==> key(s[j]) <= key(s[i])
    ensures forall j :: 0 <= j < i ==> key(s[j]) < key(s[i])
  {
    if |s| == 1 then 0
    else
      var k := FirstBest(s[1..], key);
      if key(s[0]) >= key(s[1..][k]) then 0 else k + 1
  }

  /** Stability as far as the engine can observe it: the head of the sorted
      sequence is the earliest element with the largest key. */
  lemma {:induction false} SortHeadIsFirstBest<T>(s: seq<T>, key: T -> real)
    requires |s| > 0
    ensures SortDesc(s, key)[0] == s[FirstBest(s, key)]
  {
    if |s| > 1 {
      var rest := SortDesc(s[1..], key);
      SortHeadIsFirstBest(s[1..], key);
      var k := FirstBest(s[1..], key);
      assert rest[0] == s[1..][k];
      if key(s[0]) < key(s[1..][k]) {
        assert SortDesc(s, key) == [rest[0]] + Insert(s[0], rest[1..], key);
      }
    }
  }

  /** Every element dropped by a prefix of a sorted sequence has a key no
      larger than any element kept. */
  lemma PrefixDominates<T>(s: seq<T>, key: T -> real, m: nat, x: T)
    requires SortedDesc(s, key)
    requires m <= |s|
    requires x in multiset(s) - multiset(s[..m])
    ensures forall k :: 0 <= k < m ==> key(x) <= key(s[k])
  {
    assert s == s[..m] + s[m..];
    assert multiset(s) == multiset(s[..m]) + multiset(s[m..]);
    assert x in multiset(s[m..]);
    var j :| m <= j < |s| && s[j] == x by {
      assert x in s[m..];
      var jj :| 0 <= jj < |s[m..]| && s[m..][jj] == x;
      assert s[m + jj] == x;
    }
  }
}

=== FILE: vectors.dfy ===
/** Arithmetic over embedding vectors, modelled as sequences of reals. */
module Vectors {

  function Sum(s: seq<real>): real
  {
    if s == [] then 0.0 else s[0] + Sum(s[1..])
  }

  /** Arithmetic mean of a non-empty sequence (`numpy.mean`). */
  function Mean(s: seq<real>): real
    requires |s| > 0
  {
    Sum(s) / (|s| as real)
  }

  function Square(x: real): real { x * x }

  /** Squared Euclidean distance; it orders rows exactly as the Euclidean
      distance does, since the square root is strictly increasing. */
  function SqDist(u: seq<real>, v: seq<real>): (d: real)
    requires |u| == |v|
    ensures d >= 0.0
  {
    if u == [] then 0.0 else Square(u[0] - v[0]) + SqDist(u[1..], v[1..])
  }

  lemma {:induction false} SqDistSelf(v: seq<real>)
    ensures SqDist(v, v) == 0.0
  {
    if v != [] {
      SqDistSelf(v[1..]);
    }
  }

  /** Every element divided by the same non-zero total. */
  function Scale(w: seq<real>, total: real): (r: seq<real>)
    requires total != 0.0
    ensures |r| == |w|
  {
    seq(|w|, i requires 0 <= i < |w| => w[i] / total)
  }

  lemma ScaleTail(w: seq<real>, total: real)
    requires total != 0.0 && |w| > 0
    ensures Scale(w, total)[1..] == Scale(w[1..], total)
  {
  }

  lemma {:induction false} SumScale(w: seq<real>, total: real)
    requires total != 0.0
    ensures Sum(Scale(w, total)) == Sum(w) / total
  {
    if w != [] {
      ScaleTail(w, total);
      SumScale(w[1..], total);
    }
  }

  lemma {:induction false} SumPositive(w: seq<real>)
    requires |w| > 0
    requires forall i :: 0 <= i < |w| ==> w[i] > 0.0
    ensures Sum(w) > 0.0
  {
    if |w| > 1 {
      SumPositive(w[1..]);
    }
  }
}
